=== FILE: README.md ===
# ThrillSafari ride planner — a Dafny model

ThrillSafari plans a theme-park day. A visitor gives a time budget, an age, a weight, VIP status,
the weather and a ride preference. The back end then picks rides from the park's catalog.

- It drops every ride the visitor may not take today.
- It arranges the rest by the preference.
- It walks that list first-fit and takes every ride that still fits the remaining time.
- A ride costs its duration plus its queue time. A VIP on a VIP-access ride queues half as long, rounded down.
- Every ride after the first also costs a gap between rides: 5 minutes when the budget is under
  30 minutes, 10 otherwise.

The web page checks the inputs before it sends anything: the add-ride form, and the time, age and weight of a
plan request. It colours each thrill level.

The model is split into these modules:

- `Rides`: the ride record and catalog candidates.
- `Costs`: gap, charged queue time, plan cost.
- `Ordering`: heap order, stable thrill sort, filtering, order predicates.
- `Planner`: eligibility, the preference step, the first-fit pass, `generate_optimal_plan`.
- `PlannerProperties` and `PlannerCompleteness`: what a generated plan guarantees.
- `Catalog`: the in-memory `add_ride`.
- `PyText`: Python `str.strip` and ASCII `str.lower`.
- `Api`: the two request handlers.
- `JsParse`: JavaScript `parseInt` and its decimal round trip.
- `Frontend`: the page's validators and its colour class.
- `Agreement`: how the page's checks relate to the server's.
- `Scenarios`: worked plans for a three-ride catalog.

Some facts about the code that the model keeps:

- Restricted rides are always dropped, whatever the visitor's age and weight.
- The selection is first-fit, not a search for the most thrilling plan, and the `mandatory` flag is never read.
- Visitors over 40 lose every ride with thrill above 6.

So for the catalog L001 (thrill 8, 10 + 5 minutes), L002 (5, 5 + 2) and W001 (9, 15 + 10), a 30-minute
budget yields only W001, with 5 minutes left (`Scenarios.HalfHourPlan`): the heap path takes the most
thrilling ride first, and after it neither L001 nor L002 fits with the 10-minute gap.

## Model

| member | source | states |
|---|---|---|
| Costs.RideGap | backend/tapp.py:423 | the gap is 5 minutes exactly when the budget is under 30 minutes, otherwise 10 |
| Costs.ChargedQueue | backend/tapp.py:476-477 | a VIP on a VIP-access ride is charged the floor of half the queue time; everyone else the full queue; never more than the queue, never negative |
| Costs.PlanCostSnoc | backend/tapp.py:478-486 | appending a ride adds its duration, its charged queue and, unless it is the first, one gap to the plan's cost, and adds its thrill to the plan's thrill |
| Planner.GenerateOptimalPlan | backend/tapp.py:413-501 | the remaining time starts at the budget and is never negative, and a budget of no time selects nothing; the lemmas of `PlannerProperties` and `PlannerCompleteness` state the rest of its contract |
| Planner.ParsePreference | backend/tapp.py:449-466 | only "dry_only", "wet_only" and "dry_first" select their branches; an empty or unknown preference takes the heap path |
| Planner.EligibleUpTo | backend/tapp.py:430-444 | the eligible list holds exactly the catalog rides that pass the filters, each with its own index, in catalog order |
| Planner.IsEligible | backend/tapp.py:430-444 | the five eligibility rules; `EligibleUpTo` and `PlanRidesEligible` state what they guarantee |
| Planner.Arrange | backend/tapp.py:449-473 | the preference step; `ArrangeMembers`, `ArrangeOrder` and `ArrangeComplete` state what it keeps and in which order |
| Planner.Greedy | backend/tapp.py:472-499 | the first-fit pass stops when no time remains, never overdraws a non-negative budget, only appends, and appends a subsequence of the walk |
| Ordering.Filter | backend/tapp.py:452-459 | the list comprehension keeps exactly the members satisfying the test, in their original order |
| Ordering.HeapOrder | backend/tapp.py:468-473 | popping the heap returns every pushed candidate exactly once |
| Ordering.HeapOrderStrictlyOrdered | backend/tapp.py:469-473 | with distinct indices the heap pops in strictly increasing key (-thrill, index) |
| Ordering.SortByThrill | backend/tapp.py:461-462 | `sort(key=thrill, reverse=True)` is a permutation of its input |
| Ordering.SortByThrillOrdered | backend/tapp.py:461-462 | the sort is stable: on catalog-ordered input it orders by thrill descending, then catalog index |
| Ordering.StrictlyOrderedUnique | backend/tapp.py:461-473 | two strictly ordered permutations of one list are equal |
| Ordering.HeapOrderIsThrillSort | backend/tapp.py:461-473 | the heap order and the stable thrill sort of a catalog-ordered list coincide |
| Ordering.SubsequencePairwise | backend/tapp.py:484 | a relation between all ordered pairs of the walk also holds among the rides taken from it |
| PlannerProperties.GreedyAccounting | backend/tapp.py:483-499 | the time the pass removes from the budget is exactly the cost of the rides it appends, and their thrill is exactly what it adds |
| PlannerProperties.GreedyRemainingShrinks | backend/tapp.py:486 | with positive ride times the remaining time never grows |
| PlannerProperties.GreedySaturates | backend/tapp.py:472-499 | every ride of the walk that was not taken costs more than the time finally left |
| PlannerProperties.ArrangeMembers | backend/tapp.py:449-466 | the preference step keeps only eligible rides; dry-only keeps land and kids, wet-only water, dry-first both; mixed keeps all of them |
| PlannerProperties.ArrangeOrder | backend/tapp.py:449-473 | the walk is in heap order for mixed, catalog order for dry-only and wet-only, and dry group then wet group for dry-first |
| PlannerProperties.DryFirstOrdered | backend/tapp.py:458-463 | dry-first walks every dry ride before any wet ride, each group thrill-sorted |
| PlannerProperties.PlanAccounting | backend/tapp.py:420-499 | the budget minus the remaining time is the cost of the selected rides, the total thrill is their thrill sum, the remainder is never negative, and a non-positive budget selects nothing |
| PlannerProperties.PlanRidesEligible | backend/tapp.py:430-444 | every selected ride is unrestricted, not closed by bad weather, admits the visitor's age and weight, and is at most thrill 6 for visitors over 40 |
| PlannerProperties.PlanRespectsPreference | backend/tapp.py:450-463 | dry-only plans hold only land and kids rides, wet-only plans only water rides, and in a dry-first plan no dry ride follows a wet one |
| PlannerProperties.PlanDistinct | backend/tapp.py:468-499 | no ride is selected twice |
| PlannerProperties.PlanMixedOrder | backend/tapp.py:466-486 | without a recognised preference, rides are selected by thrill descending, ties by catalog index |
| PlannerProperties.PlanCatalogOrder | backend/tapp.py:489-497 | dry-only and wet-only plans list rides in catalog order |
| PlannerProperties.PlanDryFirstOrder | backend/tapp.py:458-497 | within the dry rides and within the wet rides, a dry-first plan is thrill-descending, ties by catalog index |
| PlannerProperties.PlanOrder | backend/tapp.py:449-499 | the selection-order guarantees of every preference together |
| PlannerCompleteness.ArrangeComplete | backend/tapp.py:449-466 | every eligible ride of a type the preference admits is in the walk |
| PlannerCompleteness.MixedWalksEveryEligibleRideOnce | backend/tapp.py:430-473 | on the heap path each catalog ride is walked iff it is eligible, exactly once, in heap order, and that walk is the stable thrill sort |
| PlannerCompleteness.PlanSaturated | backend/tapp.py:413-501 | every eligible ride of an admitted type left out of the plan would cost more than the time that remains |
| Catalog.AddRide | backend/tapp.py:146-184 | a duplicate id raises the duplicate error and leaves the catalog unchanged; otherwise the ride is appended and the count grows by one; unique ids stay unique |
| Catalog.SecondInsertOfIdRejected | backend/tapp.py:146-148 | after inserting a ride, a second ride with the same id is rejected |
| PyText.Strip | backend/tapp.py:626-627 | stripping gives the empty text exactly when the input is all white space, and otherwise a slice of the input with no white space at either end |
| PyText.StripIdempotent | backend/tapp.py:626-627 | stripping twice is stripping once |
| PyText.LowerIdempotent | backend/tapp.py:636 | lowering leaves no upper-case ASCII letter, so lowering twice is lowering once |
| Api.TypeOf | backend/tapp.py:636-652 | only "land", "water" and "kids" name a ride type |
| Api.FirstMissing | backend/tapp.py:620-623 | the field reported missing is, for each of id, name, thrill, duration, queue_time, fatigue and type, exactly the first one in that order that is absent, null or empty; nothing is reported iff all are there |
| Api.FieldError | backend/tapp.py:641-652 | the fields pass iff the name is non-empty, thrill and fatigue are in 1..10, duration is at least 1, queue time is not negative and the type is known; otherwise each of the six errors is reported exactly when its check is the first to fail, in the order name, thrill, fatigue, duration, queue time, type |
| Api.HandleAddRide | backend/tapp.py:612-659 | an empty body, missing fields, field errors and duplicates are reported in that order; the duplicate error, naming the stripped id, comes exactly when every earlier check passes and the id is taken; success appends exactly the ride the request describes, with its stripped id and name, its numbers, its flags (false when absent), its lowered type and its bounds (0, 200, 0 and 100 when absent), and that ride meets every check; unique ids stay unique |
| Api.HandleGeneratePlan | backend/tapp.py:668-739 | an empty body is refused first; success iff all fields are present, the time is at least 1, the age is in 1..100, the weight in 10..300 and the catalog is not empty, each failure with its own error; a response echoes the inputs, and its thrill and minutes agree with the rides it lists |
| Api.Detail | backend/tapp.py:713-723 | a reported ride copies the id, name, thrill, duration, queue time and type of the catalog ride, and adds the queue time this visitor is charged |
| Api.PlanResponseLists | backend/tapp.py:707-723 | the response lists, in selection order, exactly the report of each catalog ride the planner selected |
| Api.Message | backend/tapp.py:616-705 | the text of each error; `MessagesDistinct` states what it guarantees |
| Api.MessagesDistinct | backend/tapp.py:616-705 | no two errors share a message, so the error body alone tells which check failed, which field is missing and which id is taken |
| Api.DetailsTotals | backend/tapp.py:707-727 | the listed rides' thrill and minutes sum to the plan's |
| JsParse.ParseInt | frontend/src/App.js:143-155 | `parseInt` without a radix; `LeadingDigits` and `ParseFormatRoundTrip` state what it guarantees |
| JsParse.LeadingDigits | frontend/src/App.js:143 | a run of decimal digits followed by a non-digit parses to the run's value; the one exception is a lone `0` followed by `x` or `X`, which reads as a hexadecimal prefix |
| JsParse.ParseFormatRoundTrip | frontend/src/App.js:143-155 | parsing the decimal form of any integer gives the integer back |
| Frontend.FirstFailure | frontend/src/App.js:135-173 | no message iff every check passes; otherwise the message of the first failing check |
| Frontend.FirstFailureAppend | frontend/src/App.js:135-173 | checks run in sequence: a later group speaks only when every earlier check passes |
| Frontend.ValidateNewRide | frontend/src/App.js:135-173 | the form checks in the page's order; `RideFormAccepted` and `DuplicateCheckedLast` state what it guarantees |
| Frontend.RideFormAccepted | frontend/src/App.js:135-173 | the form is accepted iff every required field is filled, the id is a letter L/W/K with a number of at least 1, every number is within its bound, each minimum is below its maximum and the id is new |
| Frontend.DuplicateCheckedLast | frontend/src/App.js:157-170 | the duplicate-id message is reported only when every range check passes |
| Frontend.CanonicalIdAccepted | frontend/src/App.js:142-145 | the form's id check accepts a category letter followed by the decimal form of any positive number, and reads that number back |
| Frontend.CheckPlanInputs | frontend/src/App.js:263-298 | each of the five messages (hours over 7, a non-positive total, an empty age or weight, an age outside 1..100, a weight outside 10..300) is shown exactly when its check is the first to fail; an accepted request carries the minutes, age and weight the page parsed |
| Frontend.ThrillColorClass | frontend/src/App.js:340-344 | thrill 8 and above is danger, 5 to 7 warning, below 5 success |
| Frontend.ThrillColorMonotone | frontend/src/App.js:340-344 | a higher thrill never gets a milder colour |
| Agreement.ServerAcceptsPageBounds | backend/tapp.py:686-705 | a request with a positive time, an age in 1..100 and a weight in 10..300 fails on the server only for an empty catalog, and is echoed back unchanged |
| Agreement.PageAcceptedServerAccepts | frontend/src/App.js:263-315 | whatever the page sends, the server accepts unless its catalog is empty |
| Agreement.ServerAcceptsEightHours | frontend/src/App.js:266-269 | the server accepts an 8-hour budget that the page refuses |
| Scenarios.SampleOrder | backend/tapp.py:466-473 | the sample catalog is walked W001, L001, L002 |
| Scenarios.HalfHourPlan | backend/tapp.py:413-501 | for budgets of 30 to 34 minutes the plan is W001 alone with 25 minutes used |
| Scenarios.ThreeQuarterHourPlan | backend/tapp.py:413-501 | for budgets of 42 to 49 minutes the plan is W001 then L002, thrill 14 |
| Scenarios.ShortVisitPlan | backend/tapp.py:413-501 | under 7 minutes no sample ride fits and the whole budget remains |

## Left out

- Database storage (MySQL tables, connection handling, the insert query and its type check, and loading rides)
  is not modelled. With a database, `add_ride` also rejects unknown types, but the handler has already rejected
  them by then.
- The hard-coded default rides and `update_ride_restrictions` are not modelled. `Scenarios` uses its own
  three-ride catalog.
- Authentication, JWT tokens, roles and the user endpoints are not modelled.
- Flask request decoding and the `int()`/`str()`/`bool()` conversions are not modelled. A request field is an
  optional integer, flag or text. A `ValueError` from a conversion is outside the model: `generate_plan` answers
  it with `Invalid input: ` and the exception text, and `add_ride` with the exception text alone. Any other
  exception, such as the `TypeError` of `int(None)`, is outside the model too: both handlers answer it with a
  500 error.
- Api.HandleGeneratePlan: a field that is present with the value null passes the presence check and then fails in
  `int()` with a 500 error. In the model `None` means absent only, so the model promises nothing about a null
  field. A null `ride_preference` is planned as the empty preference, but the source echoes it back as
  `ride_preference_used: null`, which the model's text field cannot hold.
- Api.HandleAddRide: an optional number set to null, such as `"min_weight": null`, makes `int(None)` fail with a
  500 error, and no ride is added. In the model an optional number is `None` only when it is absent, so the
  model promises nothing about a null one.
- `PlanModel.selected_count` is not modelled. It is computed once from the empty list the plan starts with and
  never updated, so it is always 0, and nothing reads it.
- The global `park_model` is not modelled as mutable state. Each handler maps its request and catalog to a result.
- `print`, logging and the ANSI colour codes are not modelled.
- The success messages that name the current user and the HTTP status codes are not modelled.
- React state, `fetch`, `localStorage`, token decoding in the browser, rendering, and the page's
  message after the response arrives are not modelled.
- `tempCodeRunnerFile.c` is not part of this model.
- JavaScript numbers are modelled as unbounded integers. Float precision of very long digit strings is
  not modelled.
- `parseInt` is modelled only for the radix-less call the page makes.
- `PyText.Lower` folds ASCII letters only. Python's `str.lower` also folds non-ASCII letters. So the model
  rejects a non-ASCII spelling of a type that Python might lower to "land", "water" or "kids".
- `Frontend.IdPrefixOk` treats a JavaScript string as a sequence of code points, not of UTF-16 code units.

=== FILE: agreement.dfy ===
/** How the page's plan checks relate to the server's validation of the same request. */
module Agreement {
  import opened Wrappers
  import opened Rides
  import opened Api
  import opened Frontend
  import opened JsParse

  /** The request body the page posts, as the server decodes it. */
  function RequestOf(b: PlanBody): (q: PlanRequest)
    ensures PlanFieldsPresent(q)
  {
    PlanRequest(false, Some(b.totalTime), Some(b.userAge), Some(b.userWeight), b.isVip, b.badWeather, b.ridePreference)
  }

  /** The bounds every body the page sends satisfies. */
  predicate PageBounds(b: PlanBody) {
    b.totalTime > 0 && 1 <= b.userAge <= 100 && 10 <= b.userWeight <= 300
  }

  /** A body within the page's bounds passes every field check of the server, so only an empty
      catalog can turn it away. */
  lemma ServerAcceptsPageBounds(b: PlanBody, rides: seq<Ride>)
    requires PageBounds(b)
    ensures HandleGeneratePlan(RequestOf(b), rides).Success? <==> rides != []
    ensures rides == [] ==> HandleGeneratePlan(RequestOf(b), rides) == Failure(NoRidesAvailable)
    ensures HandleGeneratePlan(RequestOf(b), rides).Success? ==>
      var resp := HandleGeneratePlan(RequestOf(b), rides).value;
      && resp.totalTimeUsed == b.totalTime && resp.userAgeUsed == b.userAge
      && resp.userWeightUsed == b.userWeight && resp.ridePreferenceUsed == b.ridePreference
  {
  }

  /** Whatever the page lets through, the server accepts unless it holds no rides: the page
      never sends a request the server rejects on its fields. */
  lemma PageAcceptedServerAccepts(hours: string, minutes: string, age: string, weight: string,
                                  isVip: bool, badWeather: bool, ridePreference: string, rides: seq<Ride>)
    requires CheckPlanInputs(hours, minutes, age, weight, isVip, badWeather, ridePreference).Success?
    ensures var b := CheckPlanInputs(hours, minutes, age, weight, isVip, badWeather, ridePreference).value;
      && (HandleGeneratePlan(RequestOf(b), rides).Success? <==> rides != [])
      && (rides == [] ==> HandleGeneratePlan(RequestOf(b), rides) == Failure(NoRidesAvailable))
  {
    ServerAcceptsPageBounds(CheckPlanInputs(hours, minutes, age, weight, isVip, badWeather, ridePreference).value, rides);
  }

  /** The server is laxer than the page: eight hours pass its validation although the page
      turns them away. */
  lemma ServerAcceptsEightHours(rides: seq<Ride>)
    requires rides != []
    ensures HandleGeneratePlan(PlanRequest(false, Some(480), Some(30), Some(70), false, false, ""), rides).Success?
    ensures CheckPlanInputs("8", "0", "30", "70", false, false, "") == Failure(ParkHoursMsg)
  {
    assert ParseInt("8") == Some(8) by {
      assert "8" == FormatInt(8);
      ParseFormatRoundTrip(8);
    }
  }
}

=== FILE: api.dfy ===
/** The request handlers of the back end: `/api/generate_plan` validates the visitor's
    request, runs the planner and shapes the response; `/api/add_ride` checks the submitted
    fields and inserts the ride into the catalog. */
module Api {
  import opened Wrappers
  import opened Rides
  import opened Costs
  import opened Planner
  import opened PlannerProperties
  import Catalog
  import PyText

  /** The 400 errors the two handlers report. */
  datatype ApiError =
    | InvalidJson
    | PlanFieldsMissing
    | TotalTimeTooShort
    | AgeOutOfRange
    | WeightOutOfRange
    | NoRidesAvailable
    | MissingField(field: string)
    | EmptyName
    | ThrillOutOfRange
    | FatigueOutOfRange
    | DurationTooShort
    | NegativeQueueTime
    | InvalidRideType
    | DuplicateRide(id: string)

  function Message(e: ApiError): string {
    match e
    case InvalidJson => "Invalid JSON data provided"
    case PlanFieldsMissing => "total_time, user_age, and user_weight are required"
    case TotalTimeTooShort => "Total time must be at least 1 minute"
    case AgeOutOfRange => "User age must be between 1 and 100"
    case WeightOutOfRange => "User weight must be between 10 and 300 kg"
    case NoRidesAvailable => "No rides available. Please add some rides first."
    case MissingField(f) => MissingPrefix + f
    case EmptyName => "Ride name cannot be empty"
    case ThrillOutOfRange => "Thrill must be between 1 and 10"
    case FatigueOutOfRange => "Fatigue must be between 1 and 10"
    case DurationTooShort => "Duration must be at least 1 minute"
    case NegativeQueueTime => "Queue time cannot be negative"
    case InvalidRideType => "Invalid ride type. Must be \"land\", \"water\", or \"kids\"."
    case DuplicateRide(id) => DuplicatePrefix + id + DuplicateSuffix
  }

  /** The error body is the only thing a client sees, and no two errors share a message: the
      field a missing-field error names and the id a duplicate error names can be read back. */
  lemma MessagesDistinct(a: ApiError, b: ApiError)
    ensures Message(a) == Message(b) ==> a == b
  {
    if a.MissingField? || a.DuplicateRide? {
      NamedMessageDistinct(a, b);
    } else if b.MissingField? || b.DuplicateRide? {
      NamedMessageDistinct(b, a);
    } else {
      FixedMessagesDistinct(a, b);
    }
  }

  /** Two errors with fixed messages share a message only when they are the same error. */
  lemma FixedMessagesDistinct(a: ApiError, b: ApiError)
    requires !a.MissingField? && !a.DuplicateRide?
    requires !b.MissingField? && !b.DuplicateRide?
    ensures Message(a) == Message(b) ==> a == b
  {
    FixedLength(a);
    FixedLength(b);
    if {a, b} == {AgeOutOfRange, DurationTooShort} {
      assert Message(AgeOutOfRange)[0] == 'U' && Message(DurationTooShort)[0] == 'D';
    }
  }

  /** The length of each fixed message; only the age and duration messages share one. */
  lemma FixedLength(e: ApiError)
    requires !e.MissingField? && !e.DuplicateRide?
    ensures |Message(e)| == match e
      case InvalidJson => 26
      case PlanFieldsMissing => 50
      case TotalTimeTooShort => 36
      case AgeOutOfRange => 34
      case WeightOutOfRange => 41
      case NoRidesAvailable => 48
      case EmptyName => 25
      case ThrillOutOfRange => 31
      case FatigueOutOfRange => 32
      case DurationTooShort => 34
      case NegativeQueueTime => 29
      case InvalidRideType => 54
      case _ => 0
  {
  }

  /** An error that names a field or an id shares its message with no other error. */
  lemma NamedMessageDistinct(a: ApiError, b: ApiError)
    requires a.MissingField? || a.DuplicateRide?
    ensures Message(a) == Message(b) ==> a == b
  {
    if Message(a) == Message(b) {
      MessageShape(a);
      MessageShape(b);
      match a
      case MissingField(f) =>
        assert f == Message(a)[|MissingPrefix|..] == Message(b)[|MissingPrefix|..] == b.field;
      case DuplicateRide(id) =>
        assert |id| == |Message(a)| - 29 == |b.id|;
        assert id == Message(a)[13..|Message(a)| - 16] == b.id;
    }
  }

  const MissingPrefix: string := "Missing required field: "
  const DuplicatePrefix: string := "Ride with ID "
  const DuplicateSuffix: string := " already exists."

  predicate StartsWith(m: string, p: string) {
    |p| <= |m| && forall k :: 0 <= k < |p| ==> m[k] == p[k]
  }

  predicate EndsWith(m: string, p: string) {
    |p| <= |m| && forall k :: 0 <= k < |p| ==> m[|m| - |p| + k] == p[k]
  }

  /** Which errors name a field or an id can be read off the ends of the message. */
  lemma MessageShape(e: ApiError)
    ensures StartsWith(Message(e), MissingPrefix) <==> e.MissingField?
    ensures e.DuplicateRide? ==> StartsWith(Message(e), DuplicatePrefix) && EndsWith(Message(e), DuplicateSuffix)
    ensures !e.MissingField? && !e.DuplicateRide? ==> !EndsWith(Message(e), DuplicateSuffix)
    ensures e.MissingField? ==> Message(e)[|MissingPrefix|..] == e.field
    ensures e.DuplicateRide? ==>
      |Message(e)| == |e.id| + 29 && Message(e)[13..|Message(e)| - 16] == e.id
  {
    match e
    case MissingField(f) =>
      assert Message(e) == MissingPrefix + f;
    case DuplicateRide(id) =>
      var m := Message(e);
      assert m == DuplicatePrefix + id + DuplicateSuffix;
      assert m[0] == DuplicatePrefix[0] != MissingPrefix[0];
    case _ =>
      FixedNotMissing(e);
      FixedNotDuplicate(e);
  }

  /** No fixed message starts like a missing-field message. */
  lemma FixedNotMissing(e: ApiError)
    requires !e.MissingField? && !e.DuplicateRide?
    ensures !StartsWith(Message(e), MissingPrefix)
  {
    match e
    case InvalidJson =>
      assert Message(e)[23] != MissingPrefix[23];
    case PlanFieldsMissing =>
      assert Message(e)[23] != MissingPrefix[23];
    case TotalTimeTooShort =>
      assert Message(e)[23] != MissingPrefix[23];
    case AgeOutOfRange =>
      assert Message(e)[23] != MissingPrefix[23];
    case WeightOutOfRange =>
      assert Message(e)[23] != MissingPrefix[23];
    case NoRidesAvailable =>
      assert Message(e)[23] != MissingPrefix[23];
    case EmptyName =>
      assert Message(e)[23] != MissingPrefix[23];
    case ThrillOutOfRange =>
      assert Message(e)[23] != MissingPrefix[23];
    case FatigueOutOfRange =>
      assert Message(e)[22] != MissingPrefix[22];
    case DurationTooShort =>
      assert Message(e)[23] != MissingPrefix[23];
    case NegativeQueueTime =>
      assert Message(e)[23] != MissingPrefix[23];
    case InvalidRideType =>
      assert Message(e)[22] != MissingPrefix[22];
  }

  /** No fixed message ends like a duplicate-id message. */
  lemma FixedNotDuplicate(e: ApiError)
    requires !e.MissingField? && !e.DuplicateRide?
    ensures !EndsWith(Message(e), DuplicateSuffix)
  {
    match e
    case InvalidJson =>
      assert Message(e)[25] != DuplicateSuffix[15];
    case PlanFieldsMissing =>
      assert Message(e)[49] != DuplicateSuffix[15];
    case TotalTimeTooShort =>
      assert Message(e)[35] != DuplicateSuffix[15];
    case AgeOutOfRange =>
      assert Message(e)[33] != DuplicateSuffix[15];
    case WeightOutOfRange =>
      assert Message(e)[40] != DuplicateSuffix[15];
    case NoRidesAvailable =>
      assert Message(e)[46] != DuplicateSuffix[14];
    case EmptyName =>
      assert Message(e)[24] != DuplicateSuffix[15];
    case ThrillOutOfRange =>
      assert Message(e)[30] != DuplicateSuffix[15];
    case FatigueOutOfRange =>
      assert Message(e)[31] != DuplicateSuffix[15];
    case DurationTooShort =>
      assert Message(e)[33] != DuplicateSuffix[15];
    case NegativeQueueTime =>
      assert Message(e)[28] != DuplicateSuffix[15];
    case InvalidRideType =>
      assert Message(e)[52] != DuplicateSuffix[14];
  }

  /** Bounds the plan request is checked against. */
  const MinTotalTime: int := 1
  const MinUserAge: int := 1
  const MaxUserAge: int := 100
  const MinUserWeight: int := 10
  const MaxUserWeight: int := 300

  // ---------------------------------------------------------------------------
  // /api/generate_plan

  /** The decoded request body. `emptyBody` holds when the body is null or an empty object; a
      field the body leaves out is `None`. */
  datatype PlanRequest = PlanRequest(
    emptyBody: bool,
    totalTime: Option<int>,
    userAge: Option<int>,
    userWeight: Option<int>,
    isVip: bool,
    badWeather: bool,
    ridePreference: string)

  /** One selected ride as reported to the visitor, with the queue time actually charged. */
  datatype RideDetail = RideDetail(
    id: string,
    name: string,
    thrill: int,
    duration: int,
    queueTime: int,
    vipQueueTime: int,
    rideType: RideType)

  datatype PlanResponse = PlanResponse(
    selectedRides: seq<RideDetail>,
    totalThrill: int,
    remainingTime: int,
    totalTimeUsed: int,
    isVipUsed: bool,
    badWeatherUsed: bool,
    userAgeUsed: int,
    userWeightUsed: int,
    ridePreferenceUsed: string)

  /** The report of one selected ride: its own fields, and the queue time this visitor is charged. */
  function Detail(r: Ride, isVip: bool): (d: RideDetail)
    ensures d.id == r.id && d.name == r.name && d.rideType == r.rideType
    ensures d.thrill == r.thrill && d.duration == r.duration && d.queueTime == r.queueTime
    ensures d.vipQueueTime == ChargedQueue(r, isVip)
    ensures d.vipQueueTime <= d.queueTime || d.queueTime < 0
  {
    RideDetail(r.id, r.name, r.thrill, r.duration, r.queueTime, ChargedQueue(r, isVip), r.rideType)
  }

  predicate PlanFieldsPresent(q: PlanRequest) {
    !q.emptyBody && q.totalTime.Some? && q.userAge.Some? && q.userWeight.Some?
  }

  predicate AgeInRange(age: int) {
    MinUserAge <= age <= MaxUserAge
  }

  predicate WeightInRange(weight: int) {
    MinUserWeight <= weight <= MaxUserWeight
  }

  /** The visitor profile a well-formed request describes. */
  function VisitorOf(q: PlanRequest): Visitor
    requires PlanFieldsPresent(q)
  {
    Visitor(q.totalTime.value, q.isVip, q.badWeather, q.userAge.value, q.userWeight.value, q.ridePreference)
  }

  function Details(rs: seq<Ride>, isVip: bool): (ds: seq<RideDetail>)
    ensures |ds| == |rs|
    ensures forall k :: 0 <= k < |rs| ==> ds[k] == Detail(rs[k], isVip)
  {
    seq(|rs|, k requires 0 <= k < |rs| => Detail(rs[k], isVip))
  }

  function DetailThrill(ds: seq<RideDetail>): int
    decreases |ds|
  {
    if ds == [] then 0 else DetailThrill(ds[..|ds| - 1]) + ds[|ds| - 1].thrill
  }

  /** Ride and charged queue minutes of the reported rides, gaps excluded. */
  function DetailMinutes(ds: seq<RideDetail>): int
    decreases |ds|
  {
    if ds == [] then 0 else DetailMinutes(ds[..|ds| - 1]) + ds[|ds| - 1].duration + ds[|ds| - 1].vipQueueTime
  }

  lemma {:induction false} DetailsTotals(rs: seq<Ride>, isVip: bool)
    ensures DetailThrill(Details(rs, isVip)) == SumThrill(rs)
    ensures DetailMinutes(Details(rs, isVip)) == RideMinutes(rs, isVip)
    decreases |rs|
  {
    if rs != [] {
      var n := |rs| - 1;
      assert Details(rs, isVip)[..n] == Details(rs[..n], isVip);
      DetailsTotals(rs[..n], isVip);
    }
  }

  /** Validation happens in source order and each failure has its own error; a valid request
      yields a response echoing the inputs used, whose totals agree with the rides it lists. */
  function HandleGeneratePlan(q: PlanRequest, rides: seq<Ride>): (r: Result<PlanResponse, ApiError>)
    ensures r.Success? <==>
      PlanFieldsPresent(q) && q.totalTime.value >= 1 && AgeInRange(q.userAge.value)
      && WeightInRange(q.userWeight.value) && rides != []
    ensures r == Failure(InvalidJson) <==> q.emptyBody
    ensures r == Failure(PlanFieldsMissing) <==> !q.emptyBody && !PlanFieldsPresent(q)
    ensures r == Failure(TotalTimeTooShort) <==> PlanFieldsPresent(q) && q.totalTime.value < 1
    ensures r == Failure(AgeOutOfRange) <==>
      PlanFieldsPresent(q) && q.totalTime.value >= 1 && !AgeInRange(q.userAge.value)
    ensures r == Failure(WeightOutOfRange) <==>
      PlanFieldsPresent(q) && q.totalTime.value >= 1 && AgeInRange(q.userAge.value)
      && !WeightInRange(q.userWeight.value)
    ensures r == Failure(NoRidesAvailable) <==>
      PlanFieldsPresent(q) && q.totalTime.value >= 1 && AgeInRange(q.userAge.value)
      && WeightInRange(q.userWeight.value) && rides == []
    ensures r.Success? ==>
      var resp := r.value;
      var n := |resp.selectedRides|;
      && resp.totalTimeUsed == q.totalTime.value
      && resp.userAgeUsed == q.userAge.value
      && resp.userWeightUsed == q.userWeight.value
      && resp.isVipUsed == q.isVip
      && resp.badWeatherUsed == q.badWeather
      && resp.ridePreferenceUsed == q.ridePreference
      && resp.totalThrill == DetailThrill(resp.selectedRides)
      && 0 <= resp.remainingTime
      && resp.totalTimeUsed - resp.remainingTime
         == DetailMinutes(resp.selectedRides) + (if n == 0 then 0 else RideGap(resp.totalTimeUsed) * (n - 1))
  {
    if q.emptyBody then Failure(InvalidJson)
    else if !PlanFieldsPresent(q) then Failure(PlanFieldsMissing)
    else if q.totalTime.value < MinTotalTime then Failure(TotalTimeTooShort)
    else if !AgeInRange(q.userAge.value) then Failure(AgeOutOfRange)
    else if !WeightInRange(q.userWeight.value) then Failure(WeightOutOfRange)
    else if rides == [] then Failure(NoRidesAvailable)
    else
      var v := VisitorOf(q);
      var p := GenerateOptimalPlan(rides, v);
      PlanAccounting(rides, v);
      var rs := RidesAt(rides, p.selected);
      DetailsTotals(rs, v.isVip);
      Success(PlanResponse(Details(rs, v.isVip), p.totalThrill, p.remainingTime,
        v.totalTime, v.isVip, v.badWeather, v.age, v.weight, v.ridePreference))
  }

  /** A successful response lists the planner's selections in selection order, each reported
      with the catalog ride's own fields and the queue time charged to this visitor. */
  lemma PlanResponseLists(q: PlanRequest, rides: seq<Ride>)
    requires HandleGeneratePlan(q, rides).Success?
    ensures var resp := HandleGeneratePlan(q, rides).value;
      var p := GenerateOptimalPlan(rides, VisitorOf(q));
      && |resp.selectedRides| == |p.selected|
      && forall k :: 0 <= k < |p.selected| ==>
           && p.selected[k] < |rides|
           && resp.selectedRides[k] == Detail(rides[p.selected[k]], q.isVip)
  {
    PlanAccounting(rides, VisitorOf(q));
  }

  // ---------------------------------------------------------------------------
  // /api/add_ride

  /** The decoded request body. `emptyBody` holds when the body is null or an empty object. A
      required field is `None` when the body leaves it out, sets it to null or, for a number, to
      the empty string; an optional field is `None` only when the body leaves it out, and an
      optional flag set to null reads as false as well. */
  datatype RideRequest = RideRequest(
    emptyBody: bool,
    id: Option<string>,
    name: Option<string>,
    thrill: Option<int>,
    duration: Option<int>,
    queueTime: Option<int>,
    fatigue: Option<int>,
    rideType: Option<string>,
    mandatory: Option<bool>,
    restricted: Option<bool>,
    vipAccess: Option<bool>,
    affectedByWeather: Option<bool>,
    minWeight: Option<int>,
    maxWeight: Option<int>,
    minAge: Option<int>,
    maxAge: Option<int>)

  /** A required text field is missing when absent, null or the empty string. */
  predicate TextMissing(f: Option<string>) {
    f.None? || f.value == ""
  }

  /** The first required field, in the order the handler checks them, that is missing. */
  function FirstMissing(q: RideRequest): (m: Option<string>)
    ensures m == Some("id") <==> TextMissing(q.id)
    ensures m == Some("name") <==> !TextMissing(q.id) && TextMissing(q.name)
    ensures m == Some("thrill") <==> !TextMissing(q.id) && !TextMissing(q.name) && q.thrill.None?
    ensures m == Some("duration") <==>
      !TextMissing(q.id) && !TextMissing(q.name) && q.thrill.Some? && q.duration.None?
    ensures m == Some("queue_time") <==>
      !TextMissing(q.id) && !TextMissing(q.name) && q.thrill.Some? && q.duration.Some?
      && q.queueTime.None?
    ensures m == Some("fatigue") <==>
      !TextMissing(q.id) && !TextMissing(q.name) && q.thrill.Some? && q.duration.Some?
      && q.queueTime.Some? && q.fatigue.None?
    ensures m == Some("type") <==>
      !TextMissing(q.id) && !TextMissing(q.name) && q.thrill.Some? && q.duration.Some?
      && q.queueTime.Some? && q.fatigue.Some? && TextMissing(q.rideType)
    ensures m.None? <==>
      !TextMissing(q.id) && !TextMissing(q.name) && q.thrill.Some? && q.duration.Some?
      && q.queueTime.Some? && q.fatigue.Some? && !TextMissing(q.rideType)
  {
    if TextMissing(q.id) then Some("id")
    else if TextMissing(q.name) then Some("name")
    else if q.thrill.None? then Some("thrill")
    else if q.duration.None? then Some("duration")
    else if q.queueTime.None? then Some("queue_time")
    else if q.fatigue.None? then Some("fatigue")
    else if TextMissing(q.rideType) then Some("type")
    else None
  }

  function TypeOf(s: string): (t: RideType)
    ensures t == Land <==> s == "land"
    ensures t == Water <==> s == "water"
    ensures t == Kids <==> s == "kids"
    ensures t.Other? ==> t.name == s
  {
    if s == "land" then Land
    else if s == "water" then Water
    else if s == "kids" then Kids
    else Other(s)
  }

  /** The ride a complete request describes, with text normalised and defaults filled in. */
  function RideOf(q: RideRequest): Ride
    requires FirstMissing(q).None?
  {
    Ride(
      PyText.Strip(q.id.value), PyText.Strip(q.name.value),
      q.thrill.value, q.duration.value, q.queueTime.value, q.fatigue.value,
      q.mandatory.GetOr(false), q.restricted.GetOr(false), q.vipAccess.GetOr(false),
      q.affectedByWeather.GetOr(false),
      TypeOf(PyText.Lower(q.rideType.value)),
      q.minWeight.GetOr(DefaultMinWeight), q.maxWeight.GetOr(DefaultMaxWeight),
      q.minAge.GetOr(DefaultMinAge), q.maxAge.GetOr(DefaultMaxAge))
  }

  /** The field checks of the handler, applied to the normalised ride; the first check that
      fails names the error. */
  function FieldError(r: Ride): (e: Option<ApiError>)
    ensures e == Some(EmptyName) <==> r.name == ""
    ensures e == Some(ThrillOutOfRange) <==> r.name != "" && !(1 <= r.thrill <= 10)
    ensures e == Some(FatigueOutOfRange) <==>
      r.name != "" && 1 <= r.thrill <= 10 && !(1 <= r.fatigue <= 10)
    ensures e == Some(DurationTooShort) <==>
      r.name != "" && 1 <= r.thrill <= 10 && 1 <= r.fatigue <= 10 && r.duration < 1
    ensures e == Some(NegativeQueueTime) <==>
      r.name != "" && 1 <= r.thrill <= 10 && 1 <= r.fatigue <= 10 && r.duration >= 1
      && r.queueTime < 0
    ensures e == Some(InvalidRideType) <==>
      r.name != "" && 1 <= r.thrill <= 10 && 1 <= r.fatigue <= 10 && r.duration >= 1
      && r.queueTime >= 0 && r.rideType !in {Land, Water, Kids}
    ensures e.None? <==>
      && r.name != ""
      && 1 <= r.thrill <= 10
      && 1 <= r.fatigue <= 10
      && r.duration >= 1
      && r.queueTime >= 0
      && r.rideType in {Land, Water, Kids}
  {
    if r.name == "" then Some(EmptyName)
    else if !(1 <= r.thrill <= 10) then Some(ThrillOutOfRange)
    else if !(1 <= r.fatigue <= 10) then Some(FatigueOutOfRange)
    else if r.duration < 1 then Some(DurationTooShort)
    else if r.queueTime < 0 then Some(NegativeQueueTime)
    else if !r.rideType.Other? then None
    else Some(InvalidRideType)
  }

  /** An empty body first, then missing fields, then field checks, then the catalog's duplicate
      check; only a request passing all four appends its ride, and the appended ride meets every
      field check. */
  function HandleAddRide(q: RideRequest, rides: seq<Ride>): (r: Result<seq<Ride>, ApiError>)
    ensures r == Failure(InvalidJson) <==> q.emptyBody
    ensures !q.emptyBody && FirstMissing(q).Some? ==> r == Failure(MissingField(FirstMissing(q).value))
    ensures !q.emptyBody && FirstMissing(q).None? && FieldError(RideOf(q)).Some? ==>
      r == Failure(FieldError(RideOf(q)).value)
    ensures r.Failure? && r.error.DuplicateRide? <==>
      !q.emptyBody && FirstMissing(q).None? && FieldError(RideOf(q)).None?
      && Catalog.HasId(rides, PyText.Strip(q.id.value))
    ensures r.Failure? && r.error.DuplicateRide? ==> q.id.Some? && r.error.id == PyText.Strip(q.id.value)
    ensures r.Success? <==>
      !q.emptyBody && FirstMissing(q).None? && FieldError(RideOf(q)).None? && !Catalog.HasId(rides, PyText.Strip(q.id.value))
    ensures r.Success? ==>
      && |r.value| == |rides| + 1
      && r.value[..|rides|] == rides
      && var added := r.value[|rides|];
      && added.id == PyText.Strip(q.id.value)
      && added.name == PyText.Strip(q.name.value) && added.name != ""
      && 1 <= added.thrill <= 10 && 1 <= added.fatigue <= 10
      && added.duration >= 1 && added.queueTime >= 0
      && added.rideType in {Land, Water, Kids}
      && WellTimed(added)
    ensures r.Success? ==>
      && r.value == rides + [RideOf(q)]
      && var added := r.value[|rides|];
      && added.thrill == q.thrill.value && added.duration == q.duration.value
      && added.queueTime == q.queueTime.value && added.fatigue == q.fatigue.value
      && added.rideType == TypeOf(PyText.Lower(q.rideType.value))
      && added.mandatory == q.mandatory.GetOr(false) && added.restricted == q.restricted.GetOr(false)
      && added.vipAccess == q.vipAccess.GetOr(false)
      && added.affectedByWeather == q.affectedByWeather.GetOr(false)
      && added.minWeight == q.minWeight.GetOr(DefaultMinWeight)
      && added.maxWeight == q.maxWeight.GetOr(DefaultMaxWeight)
      && added.minAge == q.minAge.GetOr(DefaultMinAge)
      && added.maxAge == q.maxAge.GetOr(DefaultMaxAge)
    ensures Catalog.UniqueIds(rides) && r.Success? ==> Catalog.UniqueIds(r.value)
  {
    if q.emptyBody then Failure(InvalidJson)
    else match FirstMissing(q)
    case Some(f) => Failure(MissingField(f))
    case None =>
      var ride := RideOf(q);
      match FieldError(ride)
      case Some(e) => Failure(e)
      case None =>
        var ins := Catalog.AddRide(rides, ride);
        if ins.error.Some? then Failure(DuplicateRide(ride.id)) else Success(ins.rides)
  }
}

=== FILE: catalog.dfy ===
/** The in-memory ride catalog: rejecting a duplicate id, otherwise appending the ride. */
module Catalog {
  import opened Wrappers
  import opened Rides

  datatype CatalogError = DuplicateId(id: string)

  /** The catalog after an insert, and the error the insert raised, if any. */
  datatype Insertion = Insertion(rides: seq<Ride>, error: Option<CatalogError>)

  ghost predicate UniqueIds(rides: seq<Ride>) {
    forall i, j :: 0 <= i < j < |rides| ==> rides[i].id != rides[j].id
  }

  predicate HasId(rides: seq<Ride>, id: string) {
    exists k :: 0 <= k < |rides| && rides[k].id == id
  }

  function RideCount(rides: seq<Ride>): nat {
    |rides|
  }

  /** Adds `ride` unless some ride already carries its id; in that case the catalog stays as it was. */
  function AddRide(rides: seq<Ride>, ride: Ride): (r: Insertion)
    ensures r.error.Some? <==> HasId(rides, ride.id)
    ensures r.error.Some? ==> r.error == Some(DuplicateId(ride.id)) && r.rides == rides
    ensures r.error.None? ==>
      && RideCount(r.rides) == RideCount(rides) + 1
      && r.rides[..|rides|] == rides
      && r.rides[|rides|] == ride
    ensures UniqueIds(rides) ==> UniqueIds(r.rides)
  {
    if HasId(rides, ride.id) then Insertion(rides, Some(DuplicateId(ride.id)))
    else Insertion(rides + [ride], None)
  }

  /** Inserting two rides with one id into any catalog leaves only the first of them in it. */
  lemma SecondInsertOfIdRejected(rides: seq<Ride>, a: Ride, b: Ride)
    requires a.id == b.id
    requires AddRide(rides, a).error.None?
    ensures AddRide(AddRide(rides, a).rides, b) == Insertion(rides + [a], Some(DuplicateId(b.id)))
  {
    assert (rides + [a])[|rides|].id == b.id;
  }
}

=== FILE: costs.dfy ===
/** The time a ride costs a visitor: ride duration, the queue time actually charged, and the
    gap that separates a ride from the one before it. */
module Costs {
  import opened Rides

  /** Gap between consecutive rides: short on visits under half an hour, long otherwise. */
  const ShortGap: int := 5
  const LongGap: int := 10
  const ShortVisitLimit: int := 30

  function RideGap(totalTime: int): (g: int)
    ensures g == ShortGap || g == LongGap
    ensures g == ShortGap <==> totalTime < ShortVisitLimit
  {
    if totalTime < ShortVisitLimit then ShortGap else LongGap
  }

  /** Queue time charged: halved, rounded down, for a VIP on a VIP-access ride. */
  function ChargedQueue(r: Ride, isVip: bool): (q: int)
    ensures isVip && r.vipAccess ==> 2 * q <= r.queueTime < 2 * q + 2
    ensures !(isVip && r.vipAccess) ==> q == r.queueTime
    ensures r.queueTime >= 0 ==> 0 <= q <= r.queueTime
  {
    // Python's `queue // 2` floors; Dafny's `/` by a positive divisor floors as well.
    if isVip && r.vipAccess then r.queueTime / 2 else r.queueTime
  }

  /** Time consumed by taking `r` now; every ride but the first of a plan also pays the gap. */
  function ChargedTime(r: Ride, isVip: bool, gap: int, isFirst: bool): int {
    r.duration + ChargedQueue(r, isVip) + (if isFirst then 0 else gap)
  }

  /** Sum of duration and charged queue over a sequence of rides, gaps excluded. */
  function RideMinutes(rs: seq<Ride>, isVip: bool): int
    decreases |rs|
  {
    if rs == [] then 0
    else RideMinutes(rs[..|rs| - 1], isVip) + rs[|rs| - 1].duration + ChargedQueue(rs[|rs| - 1], isVip)
  }

  /** Time a plan of the rides `rs`, taken in this order, consumes: one gap between each two rides. */
  function PlanCost(rs: seq<Ride>, isVip: bool, gap: int): int {
    RideMinutes(rs, isVip) + (if rs == [] then 0 else gap * (|rs| - 1))
  }

  function SumThrill(rs: seq<Ride>): int
    decreases |rs|
  {
    if rs == [] then 0 else SumThrill(rs[..|rs| - 1]) + rs[|rs| - 1].thrill
  }

  function RidesOf(cs: seq<Candidate>): (rs: seq<Ride>)
    ensures |rs| == |cs|
    ensures forall k :: 0 <= k < |cs| ==> rs[k] == cs[k].ride
  {
    seq(|cs|, k requires 0 <= k < |cs| => cs[k].ride)
  }

  /** Appending a ride to a plan adds exactly the time charged for it in that position. */
  lemma PlanCostSnoc(rs: seq<Ride>, r: Ride, isVip: bool, gap: int)
    ensures PlanCost(rs + [r], isVip, gap) == PlanCost(rs, isVip, gap) + ChargedTime(r, isVip, gap, rs == [])
    ensures SumThrill(rs + [r]) == SumThrill(rs) + r.thrill
  {
    assert (rs + [r])[..|rs|] == rs;
  }

  lemma RidesOfSnoc(cs: seq<Candidate>, c: Candidate)
    ensures RidesOf(cs + [c]) == RidesOf(cs) + [c.ride]
  {
  }
}

=== FILE: frontend.dfy ===
/** The client-side checks of the web page: the add-ride form validator, the input checks of
    plan generation, and the colour class given to a thrill level. Form inputs are text. */
module Frontend {
  import opened Wrappers
  import opened JsParse

  // ---------------------------------------------------------------------------
  // Ordered checks: the first failing one decides the message

  datatype Check = Check(passes: bool, message: string)

  /** Check `k` fails and every check before it passes. */
  predicate FailsFirst(cs: seq<Check>, k: nat)
    requires k < |cs|
  {
    !cs[k].passes && forall j :: 0 <= j < k ==> cs[j].passes
  }

  function FirstFailure(cs: seq<Check>): (r: Option<string>)
    ensures r.None? <==> forall k :: 0 <= k < |cs| ==> cs[k].passes
    ensures r.Some? ==> exists k :: 0 <= k < |cs| && FailsFirst(cs, k) && r.value == cs[k].message
    decreases |cs|
  {
    if cs == [] then None
    else if !cs[0].passes then Some(cs[0].message)
    else
      var r := FirstFailure(cs[1..]);
      assert r.Some? ==> exists k :: 1 <= k < |cs| && FailsFirst(cs, k) && r.value == cs[k].message by {
        if r.Some? {
          var k :| 0 <= k < |cs[1..]| && FailsFirst(cs[1..], k) && r.value == cs[1..][k].message;
          assert forall j :: 0 <= j < k + 1 ==> cs[j].passes by {
            forall j | 0 <= j < k + 1 ensures cs[j].passes {
              if j > 0 {
                assert cs[j] == cs[1..][j - 1];
              }
            }
          }
        }
      }
      r
  }

  // ---------------------------------------------------------------------------
  // The add-ride form

  datatype RideForm = RideForm(
    id: string,
    name: string,
    thrill: string,
    duration: string,
    queueTime: string,
    fatigue: string,
    rideType: string,
    minWeight: string,
    maxWeight: string,
    minAge: string,
    maxAge: string)

  const RequiredMsg: string := "Please fill in all required fields."
  const IdMsg: string := "ID must start with L, W, or K followed by a number (e.g., L001, W002)."
  const ThrillMsg: string := "Thrill must be between 1 and 10."
  const DurationMsg: string := "Duration must be at least 1 minute."
  const QueueMsg: string := "Queue time cannot be negative."
  const FatigueMsg: string := "Fatigue must be between 1 and 10."
  const MinWeightMsg: string := "Minimum weight cannot be negative."
  const MaxWeightMsg: string := "Maximum weight must be at least 1 kg."
  const WeightOrderMsg: string := "Minimum weight must be less than maximum weight."
  const MinAgeMsg: string := "Minimum age cannot be negative."
  const MaxAgeMsg: string := "Maximum age must be at least 1 year."
  const AgeOrderMsg: string := "Minimum age must be less than maximum age."

  function DuplicateMsg(id: string): string {
    "Ride with ID " + id + " already exists."
  }

  /** The first character, upper-cased, is L, W or K. */
  predicate IdPrefixOk(id: string) {
    |id| >= 1 && id[0] in {'L', 'W', 'K', 'l', 'w', 'k'}
  }

  /** `parseInt(s)` is a number within the bounds; `NaN` fails every bound. */
  predicate InRange(v: Option<int>, lo: int, hi: Option<int>) {
    v.Some? && lo <= v.value && (hi.None? || v.value <= hi.value)
  }

  /** `min >= max` on two parsed numbers; a comparison with `NaN` is false in JavaScript. */
  predicate NotBelow(a: Option<int>, b: Option<int>) {
    a.Some? && b.Some? && a.value >= b.value
  }

  predicate RequiredFilled(f: RideForm) {
    f.id != "" && f.name != "" && f.thrill != "" && f.duration != ""
    && f.queueTime != "" && f.fatigue != "" && f.rideType != ""
  }

  /** The id check: a category letter, then a number of at least 1. */
  predicate IdCheck(f: RideForm, n: Numbers) {
    IdPrefixOk(f.id) && InRange(n.idNumber, 1, None)
  }

  /** The `parseInt` results of the numeric fields. */
  datatype Numbers = Numbers(
    idNumber: Option<int>,
    thrill: Option<int>,
    duration: Option<int>,
    queueTime: Option<int>,
    fatigue: Option<int>,
    minWeight: Option<int>,
    maxWeight: Option<int>,
    minAge: Option<int>,
    maxAge: Option<int>)

  function NumbersOf(f: RideForm): Numbers {
    Numbers(if f.id == "" then None else ParseInt(f.id[1..]), ParseInt(f.thrill), ParseInt(f.duration), ParseInt(f.queueTime), ParseInt(f.fatigue),
            ParseInt(f.minWeight), ParseInt(f.maxWeight), ParseInt(f.minAge), ParseInt(f.maxAge))
  }

  /** The checks of the add-ride form, in the order the page applies them. */
  function RideFormChecks(f: RideForm, n: Numbers, existingIds: seq<string>): (cs: seq<Check>)
    ensures |cs| == 13
  {
    [ Check(RequiredFilled(f), RequiredMsg),
      Check(IdCheck(f, n), IdMsg),
      Check(InRange(n.thrill, 1, Some(10)), ThrillMsg),
      Check(InRange(n.duration, 1, None), DurationMsg),
      Check(InRange(n.queueTime, 0, None), QueueMsg),
      Check(InRange(n.fatigue, 1, Some(10)), FatigueMsg),
      Check(InRange(n.minWeight, 0, None), MinWeightMsg),
      Check(InRange(n.maxWeight, 1, None), MaxWeightMsg),
      Check(!NotBelow(n.minWeight, n.maxWeight), WeightOrderMsg),
      Check(InRange(n.minAge, 0, None), MinAgeMsg),
      Check(InRange(n.maxAge, 1, None), MaxAgeMsg),
      Check(!NotBelow(n.minAge, n.maxAge), AgeOrderMsg),
      Check(f.id !in existingIds, DuplicateMsg(f.id)) ]
  }

  /** `validateNewRide`: `None` is the page's `null`, meaning the form may be submitted. */
  function ValidateNewRide(f: RideForm, existingIds: seq<string>): Option<string> {
    FirstFailure(RideFormChecks(f, NumbersOf(f), existingIds))
  }

  lemma ChecksAccepted(f: RideForm, n: Numbers, existingIds: seq<string>)
    ensures FirstFailure(RideFormChecks(f, n, existingIds)).None? <==>
      && RequiredFilled(f)
      && IdPrefixOk(f.id) && InRange(n.idNumber, 1, None)
      && InRange(n.thrill, 1, Some(10))
      && InRange(n.duration, 1, None)
      && InRange(n.queueTime, 0, None)
      && InRange(n.fatigue, 1, Some(10))
      && InRange(n.minWeight, 0, None)
      && InRange(n.maxWeight, 1, None)
      && n.minWeight.value < n.maxWeight.value
      && InRange(n.minAge, 0, None)
      && InRange(n.maxAge, 1, None)
      && n.minAge.value < n.maxAge.value
      && f.id !in existingIds
  {
    var cs := RideFormChecks(f, n, existingIds);
    assert (forall k :: 0 <= k < 13 ==> cs[k].passes) <==>
      cs[0].passes && cs[1].passes && cs[2].passes && cs[3].passes && cs[4].passes && cs[5].passes
      && cs[6].passes && cs[7].passes && cs[8].passes && cs[9].passes && cs[10].passes
      && cs[11].passes && cs[12].passes;
  }

  /** The form is accepted exactly when every field meets its bound and the id is new. */
  lemma RideFormAccepted(f: RideForm, existingIds: seq<string>)
    ensures var n := NumbersOf(f);
      ValidateNewRide(f, existingIds).None? <==>
      && RequiredFilled(f)
      && IdPrefixOk(f.id) && InRange(n.idNumber, 1, None)
      && InRange(n.thrill, 1, Some(10))
      && InRange(n.duration, 1, None)
      && InRange(n.queueTime, 0, None)
      && InRange(n.fatigue, 1, Some(10))
      && InRange(n.minWeight, 0, None)
      && InRange(n.maxWeight, 1, None)
      && n.minWeight.value < n.maxWeight.value
      && InRange(n.minAge, 0, None)
      && InRange(n.maxAge, 1, None)
      && n.minAge.value < n.maxAge.value
      && f.id !in existingIds
  {
    ChecksAccepted(f, NumbersOf(f), existingIds);
  }

  /** Checks run in sequence: a later group is consulted only when the earlier one passes. */
  lemma {:induction false} FirstFailureAppend(a: seq<Check>, b: seq<Check>)
    ensures FirstFailure(a + b) == if FirstFailure(a).Some? then FirstFailure(a) else FirstFailure(b)
    decreases |a|
  {
    if a == [] {
      assert a + b == b;
    } else {
      assert (a + b)[1..] == a[1..] + b;
      FirstFailureAppend(a[1..], b);
    }
  }

  lemma ChecksDuplicateLast(f: RideForm, n: Numbers, existingIds: seq<string>)
    ensures var cs := RideFormChecks(f, n, existingIds);
      && ((forall k :: 0 <= k < 12 ==> cs[k].passes) ==>
            FirstFailure(cs) == if f.id in existingIds then Some(DuplicateMsg(f.id)) else None)
      && (!(forall k :: 0 <= k < 12 ==> cs[k].passes) ==> FirstFailure(cs) == FirstFailure(cs[..12]))
  {
    var cs := RideFormChecks(f, n, existingIds);
    assert cs == cs[..12] + [cs[12]];
    FirstFailureAppend(cs[..12], [cs[12]]);
    assert [cs[12]][1..] == [];
  }

  /** The duplicate-id check comes after all the range checks: it decides the result only when
      they all pass, and otherwise the first failing range check is reported. */
  lemma DuplicateCheckedLast(f: RideForm, existingIds: seq<string>)
    ensures var cs := RideFormChecks(f, NumbersOf(f), existingIds);
      && ((forall k :: 0 <= k < 12 ==> cs[k].passes) ==>
            ValidateNewRide(f, existingIds) == if f.id in existingIds then Some(DuplicateMsg(f.id)) else None)
      && (!(forall k :: 0 <= k < 12 ==> cs[k].passes) ==>
            ValidateNewRide(f, existingIds) == FirstFailure(cs[..12]))
  {
    ChecksDuplicateLast(f, NumbersOf(f), existingIds);
  }

  /** The form's id check accepts every category letter followed by the decimal form of a
      positive number, and reads that number back from the id. */
  lemma CanonicalIdAccepted(f: RideForm, c: char, k: nat)
    requires f.id == [c] + FormatNat(k)
    requires c in {'L', 'W', 'K', 'l', 'w', 'k'}
    requires k >= 1
    ensures NumbersOf(f).idNumber == Some(k)
    ensures IdCheck(f, NumbersOf(f))
  {
    assert f.id != "" && f.id[1..] == FormatNat(k);
    RoundTripNatural(k);
  }

  // ---------------------------------------------------------------------------
  // Plan generation inputs

  const ParkHours: int := 7
  const ParkHoursMsg: string := "The park is open for 7 hours"
  const NoTimeMsg: string := "Total available time must be greater than 0 minutes. Please select hours and minutes."
  const ProfileMissingMsg: string := "Please enter Your Age and Your Weight before generating a plan."
  const AgeMsg: string := "Age must be between 1 and 100 years."
  const WeightMsg: string := "Weight must be between 10 and 300 kg."

  /** The body of the plan request the page sends. */
  datatype PlanBody = PlanBody(
    totalTime: int,
    userAge: int,
    userWeight: int,
    isVip: bool,
    badWeather: bool,
    ridePreference: string)

  /** Minutes selected: an unparsed hour or minute part counts as zero. */
  function TotalMinutes(hours: Option<int>, minutes: Option<int>): int {
    hours.GetOr(0) * 60 + minutes.GetOr(0)
  }

  /** More hours than the park is open. */
  predicate TooManyHours(hours: string) {
    ParseInt(hours).Some? && ParseInt(hours).value > ParkHours
  }

  predicate AgeAccepted(age: string) {
    ParseInt(age).Some? && 1 <= ParseInt(age).value <= 100
  }

  predicate WeightAccepted(weight: string) {
    ParseInt(weight).Some? && 10 <= ParseInt(weight).value <= 300
  }

  /** The checks of `handleGeneratePlan` before the request is sent, in the page's order;
      `Failure` carries the message shown instead. */
  function CheckPlanInputs(hours: string, minutes: string, age: string, weight: string,
                           isVip: bool, badWeather: bool, ridePreference: string): (r: Result<PlanBody, string>)
    ensures r == Failure(ParkHoursMsg) <==> TooManyHours(hours)
    ensures r == Failure(NoTimeMsg) <==>
      !TooManyHours(hours) && TotalMinutes(ParseInt(hours), ParseInt(minutes)) <= 0
    ensures r == Failure(ProfileMissingMsg) <==>
      !TooManyHours(hours) && TotalMinutes(ParseInt(hours), ParseInt(minutes)) > 0
      && (age == "" || weight == "")
    ensures r == Failure(AgeMsg) <==>
      !TooManyHours(hours) && TotalMinutes(ParseInt(hours), ParseInt(minutes)) > 0
      && age != "" && weight != "" && !AgeAccepted(age)
    ensures r == Failure(WeightMsg) <==>
      !TooManyHours(hours) && TotalMinutes(ParseInt(hours), ParseInt(minutes)) > 0
      && age != "" && weight != "" && AgeAccepted(age) && !WeightAccepted(weight)
    ensures r.Success? ==>
      && (ParseInt(hours).Some? ==> ParseInt(hours).value <= ParkHours)
      && r.value.totalTime == TotalMinutes(ParseInt(hours), ParseInt(minutes))
      && r.value.totalTime > 0
      && ParseInt(age) == Some(r.value.userAge) && 1 <= r.value.userAge <= 100
      && ParseInt(weight) == Some(r.value.userWeight) && 10 <= r.value.userWeight <= 300
      && r.value.isVip == isVip && r.value.badWeather == badWeather
      && r.value.ridePreference == ridePreference
    ensures r.Success? <==>
      && !TooManyHours(hours)
      && TotalMinutes(ParseInt(hours), ParseInt(minutes)) > 0
      && age != "" && weight != ""
      && AgeAccepted(age) && WeightAccepted(weight)
  {
    var h := ParseInt(hours);
    var m := ParseInt(minutes);
    if h.Some? && h.value > ParkHours then Failure(ParkHoursMsg)
    else
      var total := TotalMinutes(h, m);
      if total <= 0 then Failure(NoTimeMsg)
      else if age == "" || weight == "" then Failure(ProfileMissingMsg)
      else
        var a := ParseInt(age);
        var w := ParseInt(weight);
        if a.None? || a.value < 1 || a.value > 100 then Failure(AgeMsg)
        else if w.None? || w.value < 10 || w.value > 300 then Failure(WeightMsg)
        else Success(PlanBody(total, a.value, w.value, isVip, badWeather, ridePreference))
  }

  // ---------------------------------------------------------------------------
  // Thrill colour

  const DangerClass: string := "text-danger"
  const WarningClass: string := "text-warning"
  const SuccessClass: string := "text-success"

  function ThrillColorClass(thrill: int): (c: string)
    ensures c == DangerClass <==> thrill >= 8
    ensures c == WarningClass <==> 5 <= thrill < 8
    ensures c == SuccessClass <==> thrill < 5
  {
    if thrill >= 8 then DangerClass
    else if thrill >= 5 then WarningClass
    else SuccessClass
  }

  /** Severity of a colour class, mild to intense. */
  function ClassRank(c: string): int {
    if c == DangerClass then 2 else if c == WarningClass then 1 else 0
  }

  /** A more thrilling ride never gets a milder colour. */
  lemma ThrillColorMonotone(a: int, b: int)
    requires a <= b
    ensures ClassRank(ThrillColorClass(a)) <= ClassRank(ThrillColorClass(b))
  {
  }
}

=== FILE: jsparse.dfy ===
/** JavaScript's `parseInt(s)` without a radix argument, over mathematical integers:
    leading white space is skipped, one sign is read, a `0x`/`0X` prefix selects base 16,
    and the longest run of digits that follows is the value. No digits at all gives `NaN`,
    written `None` here. */
module JsParse {
  import opened Wrappers

  /** White space and line terminators as ECMAScript defines them. */
  predicate IsJsSpace(c: char) {
    || ('\t' <= c <= '\r') || c == ' ' || c == '\U{A0}' || c == '\U{1680}'
    || ('\U{2000}' <= c <= '\U{200A}') || c == '\U{2028}' || c == '\U{2029}'
    || c == '\U{202F}' || c == '\U{205F}' || c == '\U{3000}' || c == '\U{FEFF}'
  }

  predicate IsDecimal(c: char) {
    '0' <= c <= '9'
  }

  predicate IsDigitIn(c: char, radix: int) {
    if radix == 16 then IsDecimal(c) || 'a' <= c <= 'f' || 'A' <= c <= 'F' else IsDecimal(c)
  }

  function DigitValue(c: char): (d: nat)
    requires IsDigitIn(c, 16)
    ensures d < 16
    ensures IsDecimal(c) ==> d < 10
  {
    if IsDecimal(c) then c as int - '0' as int
    else if 'a' <= c <= 'f' then c as int - 'a' as int + 10
    else c as int - 'A' as int + 10
  }

  function SkipSpace(s: string): (t: string)
    ensures |t| <= |s| && t == s[|s| - |t|..]
    ensures t == [] || !IsJsSpace(t[0])
    decreases |s|
  {
    if s != [] && IsJsSpace(s[0]) then SkipSpace(s[1..]) else s
  }

  /** Length of the run of digits `s` starts with. */
  function DigitRun(s: string, radix: int): (n: nat)
    ensures n <= |s|
    ensures forall k :: 0 <= k < n ==> IsDigitIn(s[k], radix)
    ensures n == |s| || !IsDigitIn(s[n], radix)
    decreases |s|
  {
    if s != [] && IsDigitIn(s[0], radix) then 1 + DigitRun(s[1..], radix) else 0
  }

  function Value(ds: string, radix: int): int
    requires radix == 10 || radix == 16
    requires forall k :: 0 <= k < |ds| ==> IsDigitIn(ds[k], radix)
    decreases |ds|
  {
    if ds == [] then 0
    else
      var c := ds[|ds| - 1];
      assert IsDigitIn(c, radix);
      Value(ds[..|ds| - 1], radix) * radix + DigitValue(c)
  }

  predicate HasHexPrefix(u: string) {
    |u| >= 2 && u[0] == '0' && (u[1] == 'x' || u[1] == 'X')
  }

  /** The digits after the sign: base 16 after a `0x` prefix, base 10 otherwise. */
  function Unsigned(u: string): Option<int> {
    var radix := if HasHexPrefix(u) then 16 else 10;
    var w := if HasHexPrefix(u) then u[2..] else u;
    var n := DigitRun(w, radix);
    if n == 0 then None else Some(Value(w[..n], radix))
  }

  function Negate(o: Option<int>): Option<int> {
    match o
    case None => None
    case Some(x) => Some(-x)
  }

  function ParseInt(s: string): Option<int> {
    var t := SkipSpace(s);
    if t != [] && t[0] == '-' then Negate(Unsigned(t[1..]))
    else if t != [] && t[0] == '+' then Unsigned(t[1..])
    else Unsigned(t)
  }

  // ---------------------------------------------------------------------------
  // Decimal formatting, the inverse of parsing

  function DigitChar(d: nat): (c: char)
    requires d < 10
    ensures IsDecimal(c) && DigitValue(c) == d
  {
    ('0' as int + d) as char
  }

  function FormatNat(n: nat): (s: string)
    ensures s != []
    ensures forall k :: 0 <= k < |s| ==> IsDecimal(s[k])
    decreases n
  {
    if n < 10 then [DigitChar(n)] else FormatNat(n / 10) + [DigitChar(n % 10)]
  }

  function FormatInt(i: int): string {
    if i < 0 then "-" + FormatNat(-i) else FormatNat(i)
  }

  lemma {:induction false} ValueOfFormat(n: nat)
    ensures Value(FormatNat(n), 10) == n
    decreases n
  {
    if n >= 10 {
      var s := FormatNat(n);
      assert s[..|s| - 1] == FormatNat(n / 10);
      ValueOfFormat(n / 10);
    }
  }

  lemma {:induction false} DigitRunOf(ds: string, rest: string)
    requires forall k :: 0 <= k < |ds| ==> IsDecimal(ds[k])
    requires rest == [] || !IsDecimal(rest[0])
    ensures DigitRun(ds + rest, 10) == |ds|
    decreases |ds|
  {
    if ds != [] {
      assert (ds + rest)[1..] == ds[1..] + rest;
      DigitRunOf(ds[1..], rest);
    } else {
      assert ds + rest == rest;
    }
  }

  lemma UnsignedDecimal(ds: string, rest: string)
    requires ds != [] && forall k :: 0 <= k < |ds| ==> IsDecimal(ds[k])
    requires rest == [] || !IsDecimal(rest[0])
    requires !(ds == "0" && rest != [] && (rest[0] == 'x' || rest[0] == 'X'))
    ensures Unsigned(ds + rest) == Some(Value(ds, 10))
  {
    var s := ds + rest;
    assert !HasHexPrefix(s) by {
      if |ds| >= 2 {
        assert s[1] == ds[1];
      }
    }
    DigitRunOf(ds, rest);
    assert s[..|ds|] == ds;
  }

  /** Without leading space or sign, the whole text is read as an unsigned number. */
  lemma ParseUnsigned(s: string)
    requires s != [] && !IsJsSpace(s[0]) && s[0] != '-' && s[0] != '+'
    ensures ParseInt(s) == Unsigned(s)
  {
    assert SkipSpace(s) == s;
  }

  /** A run of decimal digits followed by anything that does not extend it parses to the
      run's value, unless a lone `0` and an `x` read together as a hexadecimal prefix. */
  lemma LeadingDigits(ds: string, rest: string)
    requires ds != [] && forall k :: 0 <= k < |ds| ==> IsDecimal(ds[k])
    requires rest == [] || !IsDecimal(rest[0])
    requires !(ds == "0" && rest != [] && (rest[0] == 'x' || rest[0] == 'X'))
    ensures ParseInt(ds + rest) == Some(Value(ds, 10))
  {
    var s := ds + rest;
    assert s[0] == ds[0];
    calc {
      ParseInt(s);
      { ParseUnsigned(s); }
      Unsigned(s);
      { UnsignedDecimal(ds, rest); }
      Some(Value(ds, 10));
    }
  }

  /** A leading minus sign negates whatever the rest parses to. */
  lemma ParseMinus(u: string)
    ensures ParseInt("-" + u) == Negate(Unsigned(u))
  {
    var s := "-" + u;
    assert s[0] == '-' && !IsJsSpace('-');
    assert SkipSpace(s) == s;
    assert s[1..] == u;
  }

  lemma UnsignedFormat(n: nat)
    ensures Unsigned(FormatNat(n)) == Some(n)
  {
    var ds := FormatNat(n);
    ValueOfFormat(n);
    UnsignedDecimal(ds, []);
    assert ds + [] == ds;
  }

  lemma RoundTripNegative(i: int)
    requires i < 0
    ensures ParseInt(FormatInt(i)) == Some(i)
  {
    var ds := FormatNat(-i);
    calc {
      ParseInt(FormatInt(i));
      ParseInt("-" + ds);
      { ParseMinus(ds); }
      Negate(Unsigned(ds));
      { UnsignedFormat(-i); }
      Negate(Some(-i));
    }
  }

  lemma RoundTripNatural(n: nat)
    ensures ParseInt(FormatInt(n)) == Some(n)
  {
    var ds := FormatNat(n);
    ValueOfFormat(n);
    LeadingDigits(ds, []);
    assert ds + [] == ds;
  }

  /** Parsing the decimal form of any integer gives the integer back. */
  lemma ParseFormatRoundTrip(i: int)
    ensures ParseInt(FormatInt(i)) == Some(i)
  {
    if i < 0 {
      RoundTripNegative(i);
    } else {
      RoundTripNatural(i);
    }
  }
}

=== FILE: ordering.dfy ===
/** The orders in which the planner visits candidate rides: the heap order keyed by
    (-thrill, index), the stable thrill-descending sort, and order-preserving filtering. */
module Ordering {
  import opened Rides

  /** The heap key (-thrill, index) of `a` is smaller than that of `b`: `a` is popped first. */
  predicate Before(a: Candidate, b: Candidate) {
    a.ride.thrill > b.ride.thrill || (a.ride.thrill == b.ride.thrill && a.index < b.index)
  }

  /** `R` holds of every pair of elements taken in sequence order. */
  ghost predicate Pairwise(s: seq<Candidate>, R: (Candidate, Candidate) -> bool) {
    forall i, j :: 0 <= i < j < |s| ==> R(s[i], s[j])
  }

  ghost predicate StrictlyOrdered(s: seq<Candidate>) {
    forall i, j :: 0 <= i < j < |s| ==> Before(s[i], s[j])
  }

  ghost predicate IndexAscending(s: seq<Candidate>) {
    forall i, j :: 0 <= i < j < |s| ==> s[i].index < s[j].index
  }

  ghost predicate DistinctIndices(s: seq<Candidate>) {
    forall i, j :: 0 <= i < j < |s| ==> s[i].index != s[j].index
  }

  /** `a` is obtained from `b` by deleting elements, keeping the rest in order. */
  ghost predicate IsSubsequence(a: seq<Candidate>, b: seq<Candidate>)
    decreases |b|
  {
    if a == [] then true
    else if b == [] then false
    else (a[0] == b[0] && IsSubsequence(a[1..], b[1..])) || IsSubsequence(a, b[1..])
  }

  lemma {:induction false} SubsequenceMembers(a: seq<Candidate>, b: seq<Candidate>)
    requires IsSubsequence(a, b)
    ensures forall x :: x in a ==> x in b
    decreases |b|
  {
    if a != [] {
      if a[0] == b[0] && IsSubsequence(a[1..], b[1..]) {
        SubsequenceMembers(a[1..], b[1..]);
        assert forall x :: x in a ==> x == a[0] || x in a[1..];
      } else {
        SubsequenceMembers(a, b[1..]);
      }
    }
  }

  /** Deleting elements keeps every relation that held between all ordered pairs. */
  lemma {:induction false} SubsequencePairwise(a: seq<Candidate>, b: seq<Candidate>, R: (Candidate, Candidate) -> bool)
    requires IsSubsequence(a, b)
    requires Pairwise(b, R)
    ensures Pairwise(a, R)
    decreases |b|
  {
    if a != [] {
      if a[0] == b[0] && IsSubsequence(a[1..], b[1..]) {
        assert Pairwise(b[1..], R) by {
          forall i, j | 0 <= i < j < |b[1..]| ensures R(b[1..][i], b[1..][j]) {
            assert b[1..][i] == b[i + 1] && b[1..][j] == b[j + 1];
          }
        }
        SubsequencePairwise(a[1..], b[1..], R);
        SubsequenceMembers(a[1..], b[1..]);
        forall i, j | 0 <= i < j < |a| ensures R(a[i], a[j]) {
          if i == 0 {
            assert a[j] == a[1..][j - 1];
            assert a[j] in a[1..];
            assert a[j] in b[1..];
            var k :| 0 <= k < |b[1..]| && b[1..][k] == a[j];
            assert R(b[0], b[k + 1]);
          } else {
            assert a[i] == a[1..][i - 1] && a[j] == a[1..][j - 1];
          }
        }
      } else {
        assert Pairwise(b[1..], R) by {
          forall i, j | 0 <= i < j < |b[1..]| ensures R(b[1..][i], b[1..][j]) {
            assert b[1..][i] == b[i + 1] && b[1..][j] == b[j + 1];
          }
        }
        SubsequencePairwise(a, b[1..], R);
      }
    }
  }

  // ---------------------------------------------------------------------------
  // Order-preserving filtering (the list comprehensions of the preference step)

  function Filter(s: seq<Candidate>, keep: Candidate -> bool): (r: seq<Candidate>)
    ensures forall x :: x in r <==> x in s && keep(x)
    ensures IsSubsequence(r, s)
    decreases |s|
  {
    if s == [] then []
    else if keep(s[0]) then [s[0]] + Filter(s[1..], keep)
    else Filter(s[1..], keep)
  }

  // ---------------------------------------------------------------------------
  // The heap: repeated extraction of the candidate with the smallest key

  /** Position of a candidate whose key is not larger than any other key in `s`. */
  function MinPosition(s: seq<Candidate>): (m: nat)
    requires s != []
    ensures m < |s|
    ensures forall j :: 0 <= j < |s| ==> !Before(s[j], s[m])
    decreases |s|
  {
    if |s| == 1 then 0
    else
      var m := MinPosition(s[1..]);
      if Before(s[m + 1], s[0]) then m + 1 else 0
  }

  function RemoveAt(s: seq<Candidate>, m: nat): (r: seq<Candidate>)
    requires m < |s|
    ensures |r| == |s| - 1
    ensures multiset(r) + multiset{s[m]} == multiset(s)
  {
    assert s == s[..m] + [s[m]] + s[m + 1..];
    s[..m] + s[m + 1..]
  }

  /** The order in which `heappop` returns the candidates pushed with key (-thrill, index). */
  function HeapOrder(pool: seq<Candidate>): (r: seq<Candidate>)
    ensures multiset(r) == multiset(pool)
    decreases |pool|
  {
    if pool == [] then []
    else
      var m := MinPosition(pool);
      [pool[m]] + HeapOrder(RemoveAt(pool, m))
  }

  lemma DistinctRemoveAt(s: seq<Candidate>, m: nat)
    requires m < |s|
    requires DistinctIndices(s)
    ensures DistinctIndices(RemoveAt(s, m))
    ensures forall x :: x in RemoveAt(s, m) ==> x.index != s[m].index
  {
    var r := RemoveAt(s, m);
    forall i | 0 <= i < |r| ensures r[i] == s[if i < m then i else i + 1] {}
  }

  /** The candidate the heap pops first precedes every candidate left behind. */
  lemma MinPositionFirst(pool: seq<Candidate>)
    requires pool != [] && DistinctIndices(pool)
    ensures forall y :: y in RemoveAt(pool, MinPosition(pool)) ==> Before(pool[MinPosition(pool)], y)
  {
    var m := MinPosition(pool);
    var rest := RemoveAt(pool, m);
    DistinctRemoveAt(pool, m);
    forall y | y in rest ensures Before(pool[m], y) {
      var k :| 0 <= k < |pool| && pool[k] == y by {
        assert y in multiset(rest);
        assert y in multiset(pool);
      }
      assert !Before(pool[k], pool[m]);
    }
  }

  /** Putting in front a candidate that precedes all others keeps a list strictly ordered. */
  lemma ConsOrdered(x: Candidate, t: seq<Candidate>)
    requires StrictlyOrdered(t)
    requires forall y :: y in t ==> Before(x, y)
    ensures StrictlyOrdered([x] + t)
  {
    var r := [x] + t;
    forall i, j | 0 <= i < j < |r| ensures Before(r[i], r[j]) {
      assert r[j] == t[j - 1];
      if i > 0 {
        assert r[i] == t[i - 1];
      } else {
        assert t[j - 1] in t;
      }
    }
  }

  /** Because every key is unique, the heap pops candidates in strictly increasing key order. */
  lemma {:induction false} HeapOrderStrictlyOrdered(pool: seq<Candidate>)
    requires DistinctIndices(pool)
    ensures StrictlyOrdered(HeapOrder(pool))
    decreases |pool|
  {
    if pool != [] {
      var m := MinPosition(pool);
      var rest := RemoveAt(pool, m);
      DistinctRemoveAt(pool, m);
      HeapOrderStrictlyOrdered(rest);
      MinPositionFirst(pool);
      var h := HeapOrder(rest);
      forall y | y in h ensures Before(pool[m], y) {
        assert y in multiset(h);
      }
      ConsOrdered(pool[m], h);
    }
  }

  // ---------------------------------------------------------------------------
  // The stable sort by thrill, descending (`list.sort(key=thrill, reverse=True)`)

  /** Inserts `x` in front of the first element whose thrill does not exceed its own. */
  function InsertByThrill(x: Candidate, t: seq<Candidate>): (r: seq<Candidate>)
    ensures multiset(r) == multiset(t) + multiset{x}
    decreases |t|
  {
    if t == [] || x.ride.thrill >= t[0].ride.thrill then [x] + t
    else
      assert t == [t[0]] + t[1..];
      [t[0]] + InsertByThrill(x, t[1..])
  }

  function SortByThrill(s: seq<Candidate>): (r: seq<Candidate>)
    ensures multiset(r) == multiset(s)
    decreases |s|
  {
    if s == [] then []
    else
      assert s == [s[0]] + s[1..];
      InsertByThrill(s[0], SortByThrill(s[1..]))
  }

  lemma {:induction false} InsertByThrillOrdered(x: Candidate, t: seq<Candidate>)
    requires StrictlyOrdered(t)
    requires forall y :: y in t ==> x.index < y.index
    ensures StrictlyOrdered(InsertByThrill(x, t))
    decreases |t|
  {
    var r := InsertByThrill(x, t);
    if t == [] || x.ride.thrill >= t[0].ride.thrill {
      forall j | 0 <= j < |t| ensures Before(x, t[j]) {
        if j > 0 {
          assert Before(t[0], t[j]);
        }
      }
      forall i, j | 0 <= i < j < |r| ensures Before(r[i], r[j]) {
        if i > 0 {
          assert r[i] == t[i - 1] && r[j] == t[j - 1];
        }
      }
    } else {
      var tail := InsertByThrill(x, t[1..]);
      assert StrictlyOrdered(t[1..]) by {
        forall i, j | 0 <= i < j < |t[1..]| ensures Before(t[1..][i], t[1..][j]) {
          assert t[1..][i] == t[i + 1] && t[1..][j] == t[j + 1];
        }
      }
      InsertByThrillOrdered(x, t[1..]);
      forall j | 0 <= j < |tail| ensures Before(t[0], tail[j]) {
        assert tail[j] in multiset(tail);
        if tail[j] != x {
          assert tail[j] in t[1..];
          var k :| 0 <= k < |t[1..]| && t[1..][k] == tail[j];
          assert Before(t[0], t[k + 1]);
        }
      }
      forall i, j | 0 <= i < j < |r| ensures Before(r[i], r[j]) {
        if i > 0 {
          assert r[i] == tail[i - 1] && r[j] == tail[j - 1];
        }
      }
    }
  }

  /** On input listed in catalog order, the stable thrill sort breaks ties by ascending index,
      so it orders candidates exactly by the heap key. */
  lemma {:induction false} SortByThrillOrdered(s: seq<Candidate>)
    requires IndexAscending(s)
    ensures StrictlyOrdered(SortByThrill(s))
    decreases |s|
  {
    if s != [] {
      assert IndexAscending(s[1..]) by {
        forall i, j | 0 <= i < j < |s[1..]| ensures s[1..][i].index < s[1..][j].index {
          assert s[1..][i] == s[i + 1] && s[1..][j] == s[j + 1];
        }
      }
      SortByThrillOrdered(s[1..]);
      var t := SortByThrill(s[1..]);
      forall y | y in t ensures s[0].index < y.index {
        assert y in multiset(s[1..]);
        var k :| 0 <= k < |s[1..]| && s[1..][k] == y;
        assert s[k + 1] == y;
      }
      InsertByThrillOrdered(s[0], t);
    }
  }

  // ---------------------------------------------------------------------------
  // Uniqueness: a multiset has at most one strictly ordered arrangement

  lemma TailStrictlyOrdered(s: seq<Candidate>)
    requires s != [] && StrictlyOrdered(s)
    ensures StrictlyOrdered(s[1..])
  {
    forall p, q | 0 <= p < q < |s[1..]| ensures Before(s[1..][p], s[1..][q]) {
      assert s[1..][p] == s[p + 1] && s[1..][q] == s[q + 1];
    }
  }

  /** Two strictly ordered arrangements of one multiset start with the same element. */
  lemma SameFirst(a: seq<Candidate>, b: seq<Candidate>)
    requires a != [] && b != []
    requires multiset(a) == multiset(b)
    requires StrictlyOrdered(a) && StrictlyOrdered(b)
    ensures a[0] == b[0]
  {
    assert a[0] in multiset(b);
    var j :| 0 <= j < |b| && b[j] == a[0];
    assert b[0] in multiset(a);
    var i :| 0 <= i < |a| && a[i] == b[0];
  }

  lemma MultisetTail(s: seq<Candidate>)
    requires s != []
    ensures multiset(s[1..]) == multiset(s) - multiset{s[0]}
  {
    assert s == [s[0]] + s[1..];
  }

  lemma {:induction false} StrictlyOrderedUnique(a: seq<Candidate>, b: seq<Candidate>)
    requires multiset(a) == multiset(b)
    requires StrictlyOrdered(a) && StrictlyOrdered(b)
    ensures a == b
    decreases |a|
  {
    if a == [] {
      assert |b| == |multiset(b)| == 0;
    } else {
      assert |b| == |multiset(b)| == |multiset(a)| == |a|;
      SameFirst(a, b);
      assert a == [a[0]] + a[1..] && b == [b[0]] + b[1..];
      MultisetTail(a);
      MultisetTail(b);
      TailStrictlyOrdered(a);
      TailStrictlyOrdered(b);
      StrictlyOrderedUnique(a[1..], b[1..]);
    }
  }

  /** Popping the heap and stably sorting by thrill visit a catalog-ordered list identically. */
  lemma HeapOrderIsThrillSort(s: seq<Candidate>)
    requires IndexAscending(s)
    ensures HeapOrder(s) == SortByThrill(s)
  {
    HeapOrderStrictlyOrdered(s);
    SortByThrillOrdered(s);
    StrictlyOrderedUnique(HeapOrder(s), SortByThrill(s));
  }
}

=== FILE: planner.dfy ===
/** The ride-plan generator: eligibility filter, preference step, and the greedy selection
    that spends a shrinking time budget. */
module Planner {
  import opened Rides
  import opened Costs
  import opened Ordering

  /** How the visitor wants wet and dry rides handled. The empty string and any
      unrecognised string select the heap-ordered pass over all eligible rides. */
  datatype Preference = Mixed | DryOnly | WetOnly | DryFirst

  function ParsePreference(s: string): (p: Preference)
    ensures p == DryOnly <==> s == "dry_only"
    ensures p == WetOnly <==> s == "wet_only"
    ensures p == DryFirst <==> s == "dry_first"
  {
    if s == "dry_only" then DryOnly
    else if s == "wet_only" then WetOnly
    else if s == "dry_first" then DryFirst
    else Mixed
  }

  /** The visitor profile and time budget the plan is generated for. */
  datatype Visitor = Visitor(
    totalTime: int,
    isVip: bool,
    badWeather: bool,
    age: int,
    weight: int,
    ridePreference: string)

  /** Visitors older than this may not take rides with a thrill above `SeniorThrillCap`. */
  const SeniorAge: int := 40
  const SeniorThrillCap: int := 6

  /** The eligibility rules: restricted rides are never planned, weather-affected rides are
      dropped in bad weather, the bounds are inclusive, and intense rides are capped by age. */
  predicate IsEligible(r: Ride, v: Visitor) {
    && !r.restricted
    && !(v.badWeather && r.affectedByWeather)
    && r.minAge <= v.age <= r.maxAge
    && r.minWeight <= v.weight <= r.maxWeight
    && !(v.age > SeniorAge && r.thrill > SeniorThrillCap)
  }

  /** The eligible rides among the first `n` of the catalog, in catalog order. */
  function EligibleUpTo(rides: seq<Ride>, v: Visitor, n: nat): (es: seq<Candidate>)
    requires n <= |rides|
    ensures forall c :: c in es ==> c.index < n && rides[c.index] == c.ride && IsEligible(c.ride, v)
    ensures forall i :: 0 <= i < n && IsEligible(rides[i], v) ==> Candidate(i, rides[i]) in es
    ensures IndexAscending(es)
  {
    if n == 0 then []
    else
      var es := EligibleUpTo(rides, v, n - 1);
      if IsEligible(rides[n - 1], v) then es + [Candidate(n - 1, rides[n - 1])] else es
  }

  function Eligible(rides: seq<Ride>, v: Visitor): seq<Candidate> {
    EligibleUpTo(rides, v, |rides|)
  }

  predicate KeepDry(c: Candidate) {
    IsDry(c.ride.rideType)
  }

  predicate KeepWet(c: Candidate) {
    IsWet(c.ride.rideType)
  }

  /** The preference step: the list the selection pass walks through, in walking order. */
  function Arrange(eligible: seq<Candidate>, p: Preference): seq<Candidate> {
    match p
    case Mixed => HeapOrder(eligible)
    case DryOnly => Filter(eligible, KeepDry)
    case WetOnly => Filter(eligible, KeepWet)
    case DryFirst => SortByThrill(Filter(eligible, KeepDry)) + SortByThrill(Filter(eligible, KeepWet))
  }

  /** The state of the selection pass. */
  datatype Selection = Selection(picked: seq<Candidate>, totalThrill: int, remainingTime: int)

  /** First-fit pass: stops once no time remains; a ride that does not fit is skipped and the
      pass goes on with the next one. */
  function Greedy(order: seq<Candidate>, isVip: bool, gap: int, acc: Selection): (r: Selection)
    ensures acc.remainingTime <= 0 ==> r == acc
    ensures acc.remainingTime >= 0 ==> r.remainingTime >= 0
    ensures acc.picked <= r.picked
    ensures IsSubsequence(r.picked[|acc.picked|..], order)
    decreases |order|
  {
    if order == [] || acc.remainingTime <= 0 then acc
    else
      var c := order[0];
      var cost := ChargedTime(c.ride, isVip, gap, acc.picked == []);
      if cost <= acc.remainingTime then
        var r := Greedy(order[1..], isVip, gap,
          Selection(acc.picked + [c], acc.totalThrill + c.ride.thrill, acc.remainingTime - cost));
        assert r.picked[|acc.picked|..] == [c] + r.picked[|acc.picked| + 1..];
        r
      else
        Greedy(order[1..], isVip, gap, acc)
  }

  /** The result handed back to the request handler: catalog indices in selection order. */
  datatype Plan = Plan(selected: seq<nat>, totalThrill: int, remainingTime: int)

  function Select(rides: seq<Ride>, v: Visitor): Selection {
    Greedy(Arrange(Eligible(rides, v), ParsePreference(v.ridePreference)),
           v.isVip, RideGap(v.totalTime), Selection([], 0, v.totalTime))
  }

  /** `generate_optimal_plan`: the remaining time starts at the budget and never goes negative,
      and a budget of no time selects nothing. */
  function GenerateOptimalPlan(rides: seq<Ride>, v: Visitor): (p: Plan)
    ensures v.totalTime >= 0 ==> p.remainingTime >= 0
    ensures v.totalTime <= 0 ==> p == Plan([], 0, v.totalTime)
  {
    var s := Select(rides, v);
    Plan(Indices(s.picked), s.totalThrill, s.remainingTime)
  }
}

=== FILE: planner_properties.dfy ===
/** What the ride-plan generator guarantees: budget accounting, eligibility of every selected
    ride, preference purity, selection order, and that nothing left out would still fit. */
module PlannerProperties {
  import opened Rides
  import opened Costs
  import opened Ordering
  import opened Planner

  /** The catalog rides a plan names, in plan order. */
  function RidesAt(rides: seq<Ride>, sel: seq<nat>): (rs: seq<Ride>)
    requires forall k :: 0 <= k < |sel| ==> sel[k] < |rides|
    ensures |rs| == |sel|
    ensures forall k :: 0 <= k < |sel| ==> rs[k] == rides[sel[k]]
  {
    seq(|sel|, k requires 0 <= k < |sel| => rides[sel[k]])
  }

  /** The ride attributes the add-ride endpoint enforces and the cost arithmetic relies on. */
  ghost predicate WellTimed(r: Ride) {
    r.duration >= 1 && r.queueTime >= 0
  }

  // ---------------------------------------------------------------------------
  // The selection pass

  /** Time and thrill bookkeeping: whatever the pass adds to the plan is paid for exactly. */
  lemma {:induction false} GreedyAccounting(order: seq<Candidate>, isVip: bool, gap: int, acc: Selection)
    ensures var r := Greedy(order, isVip, gap, acc);
      && r.remainingTime + PlanCost(RidesOf(r.picked), isVip, gap)
         == acc.remainingTime + PlanCost(RidesOf(acc.picked), isVip, gap)
      && r.totalThrill - SumThrill(RidesOf(r.picked)) == acc.totalThrill - SumThrill(RidesOf(acc.picked))
    decreases |order|
  {
    if order == [] || acc.remainingTime <= 0 {
    } else {
      var c := order[0];
      var cost := ChargedTime(c.ride, isVip, gap, acc.picked == []);
      if cost <= acc.remainingTime {
        var next := Selection(acc.picked + [c], acc.totalThrill + c.ride.thrill, acc.remainingTime - cost);
        assert Greedy(order, isVip, gap, acc) == Greedy(order[1..], isVip, gap, next);
        GreedyAccounting(order[1..], isVip, gap, next);
        TakeAccounting(acc, c, isVip, gap);
      } else {
        assert Greedy(order, isVip, gap, acc) == Greedy(order[1..], isVip, gap, acc);
        GreedyAccounting(order[1..], isVip, gap, acc);
      }
    }
  }

  /** Taking one more ride moves its charged time from the remaining time into the plan's cost. */
  lemma TakeAccounting(acc: Selection, c: Candidate, isVip: bool, gap: int)
    ensures var cost := ChargedTime(c.ride, isVip, gap, acc.picked == []);
      var next := Selection(acc.picked + [c], acc.totalThrill + c.ride.thrill, acc.remainingTime - cost);
      && next.remainingTime + PlanCost(RidesOf(next.picked), isVip, gap)
         == acc.remainingTime + PlanCost(RidesOf(acc.picked), isVip, gap)
      && next.totalThrill - SumThrill(RidesOf(next.picked)) == acc.totalThrill - SumThrill(RidesOf(acc.picked))
  {
    RidesOfSnoc(acc.picked, c);
    assert (acc.picked == []) == (RidesOf(acc.picked) == []);
    PlanCostSnoc(RidesOf(acc.picked), c.ride, isVip, gap);
  }

  /** With positive ride times the remaining time never grows. */
  lemma {:induction false} GreedyRemainingShrinks(order: seq<Candidate>, isVip: bool, gap: int, acc: Selection)
    requires gap >= 0
    requires forall c :: c in order ==> WellTimed(c.ride)
    ensures Greedy(order, isVip, gap, acc).remainingTime <= acc.remainingTime
    decreases |order|
  {
    if order != [] && acc.remainingTime > 0 {
      var c := order[0];
      var cost := ChargedTime(c.ride, isVip, gap, acc.picked == []);
      assert c in order;
      if cost <= acc.remainingTime {
        GreedyRemainingShrinks(order[1..], isVip, gap,
          Selection(acc.picked + [c], acc.totalThrill + c.ride.thrill, acc.remainingTime - cost));
      } else {
        GreedyRemainingShrinks(order[1..], isVip, gap, acc);
      }
    }
  }

  /** First fit leaves no slack a skipped ride could use: every ride of the walk that was not
      taken would cost more, as the next ride of the plan, than the time that is left. */
  lemma {:induction false} GreedySaturates(order: seq<Candidate>, isVip: bool, gap: int, acc: Selection)
    requires gap >= 0
    requires acc.remainingTime >= 0
    requires forall c :: c in order ==> WellTimed(c.ride)
    ensures var r := Greedy(order, isVip, gap, acc);
      forall c :: c in order && c !in r.picked ==>
        ChargedTime(c.ride, isVip, gap, r.picked == []) > r.remainingTime
    decreases |order|
  {
    var r := Greedy(order, isVip, gap, acc);
    if order == [] {
    } else if acc.remainingTime <= 0 {
      forall c | c in order && c !in r.picked
        ensures ChargedTime(c.ride, isVip, gap, r.picked == []) > r.remainingTime
      {
        assert WellTimed(c.ride);
      }
    } else {
      var c0 := order[0];
      var cost := ChargedTime(c0.ride, isVip, gap, acc.picked == []);
      var next := if cost <= acc.remainingTime
        then Selection(acc.picked + [c0], acc.totalThrill + c0.ride.thrill, acc.remainingTime - cost)
        else acc;
      assert r == Greedy(order[1..], isVip, gap, next);
      assert forall c :: c in order[1..] ==> c in order;
      GreedySaturates(order[1..], isVip, gap, next);
      if cost > acc.remainingTime {
        GreedyRemainingShrinks(order[1..], isVip, gap, acc);
        assert ChargedTime(c0.ride, isVip, gap, r.picked == []) >= cost by {
          if acc.picked != [] {
            assert acc.picked <= r.picked;
          }
        }
      } else {
        assert c0 in next.picked;
        assert next.picked <= r.picked;
      }
      forall c | c in order && c !in r.picked
        ensures ChargedTime(c.ride, isVip, gap, r.picked == []) > r.remainingTime
      {
        if c != c0 {
          assert c in order[1..];
        }
      }
    }
  }

  // ---------------------------------------------------------------------------
  // The preference step

  /** Relation kept by the dry-first list: dry rides before wet ones, heap order within a group. */
  predicate DryFirstBefore(a: Candidate, b: Candidate) {
    (KeepDry(a) && KeepWet(b)) || (KeepDry(a) == KeepDry(b) && Before(a, b))
  }

  lemma ArrangeMembers(eligible: seq<Candidate>, p: Preference)
    ensures forall c :: c in Arrange(eligible, p) ==> c in eligible
    ensures p == DryOnly ==> forall c :: c in Arrange(eligible, p) ==> KeepDry(c)
    ensures p == WetOnly ==> forall c :: c in Arrange(eligible, p) ==> KeepWet(c)
    ensures p == DryFirst ==> forall c :: c in Arrange(eligible, p) ==> KeepDry(c) || KeepWet(c)
    ensures p == Mixed ==> multiset(Arrange(eligible, p)) == multiset(eligible)
  {
    var a := Arrange(eligible, p);
    match p
    case Mixed =>
      forall c | c in a ensures c in eligible {
        assert c in multiset(a);
      }
    case DryOnly =>
    case WetOnly =>
    case DryFirst =>
      var dry := Filter(eligible, KeepDry);
      var wet := Filter(eligible, KeepWet);
      forall c | c in a ensures c in eligible && (KeepDry(c) || KeepWet(c)) {
        if c in SortByThrill(dry) {
          assert c in multiset(SortByThrill(dry));
        } else {
          assert c in SortByThrill(wet);
          assert c in multiset(SortByThrill(wet));
        }
      }
  }

  lemma FilterAscending(s: seq<Candidate>, keep: Candidate -> bool)
    requires IndexAscending(s)
    ensures IndexAscending(Filter(s, keep))
  {
    var R := (a: Candidate, b: Candidate) => a.index < b.index;
    assert Pairwise(s, R);
    SubsequencePairwise(Filter(s, keep), s, R);
  }

  /** The walking order of each preference, for a catalog-ordered list of eligible rides. */
  lemma ArrangeOrder(eligible: seq<Candidate>, p: Preference)
    requires IndexAscending(eligible)
    ensures p == Mixed ==> StrictlyOrdered(Arrange(eligible, p))
    ensures p == DryOnly || p == WetOnly ==> IndexAscending(Arrange(eligible, p))
    ensures p == DryFirst ==> Pairwise(Arrange(eligible, p), DryFirstBefore)
  {
    match p
    case Mixed =>
      HeapOrderStrictlyOrdered(eligible);
    case DryOnly =>
      FilterAscending(eligible, KeepDry);
    case WetOnly =>
      FilterAscending(eligible, KeepWet);
    case DryFirst =>
      DryFirstOrdered(eligible);
  }

  /** Dry-first walks the dry rides, thrill-sorted, and then the wet rides, thrill-sorted. */
  lemma DryFirstOrdered(eligible: seq<Candidate>)
    requires IndexAscending(eligible)
    ensures Pairwise(Arrange(eligible, DryFirst), DryFirstBefore)
  {
    var dry := Filter(eligible, KeepDry);
    var wet := Filter(eligible, KeepWet);
    SortedGroup(eligible, KeepDry);
    SortedGroup(eligible, KeepWet);
    GroupsOrdered(SortByThrill(dry), SortByThrill(wet));
  }

  /** One group of the dry-first list: thrill-sorted, and all of the group's kind. */
  lemma SortedGroup(eligible: seq<Candidate>, keep: Candidate -> bool)
    requires IndexAscending(eligible)
    ensures StrictlyOrdered(SortByThrill(Filter(eligible, keep)))
    ensures forall x :: x in SortByThrill(Filter(eligible, keep)) ==> keep(x)
  {
    var g := Filter(eligible, keep);
    FilterAscending(eligible, keep);
    SortByThrillOrdered(g);
    forall x | x in SortByThrill(g) ensures keep(x) {
      assert x in multiset(SortByThrill(g));
    }
  }

  /** A sorted dry group followed by a sorted wet group keeps the dry-first relation. */
  lemma GroupsOrdered(dry: seq<Candidate>, wet: seq<Candidate>)
    requires StrictlyOrdered(dry) && StrictlyOrdered(wet)
    requires forall x :: x in dry ==> KeepDry(x)
    requires forall x :: x in wet ==> KeepWet(x)
    ensures Pairwise(dry + wet, DryFirstBefore)
  {
    var a := dry + wet;
    forall i, j | 0 <= i < j < |a| ensures DryFirstBefore(a[i], a[j]) {
      if j < |dry| {
        assert a[i] == dry[i] && a[j] == dry[j];
        assert dry[i] in dry && dry[j] in dry;
      } else if i >= |dry| {
        assert a[i] == wet[i - |dry|] && a[j] == wet[j - |dry|];
        assert a[i] in wet && a[j] in wet;
        assert !KeepDry(a[i]) && !KeepDry(a[j]);
      } else {
        assert a[i] == dry[i] && a[j] == wet[j - |dry|];
        assert a[i] in dry && a[j] in wet;
      }
    }
  }

  // ---------------------------------------------------------------------------
  // The generated plan

  lemma SelectDrawn(rides: seq<Ride>, v: Visitor)
    ensures var s := Select(rides, v);
      && DrawnFrom(s.picked, rides)
      && (forall c :: c in s.picked ==> IsEligible(c.ride, v))
      && IsSubsequence(s.picked, Arrange(Eligible(rides, v), ParsePreference(v.ridePreference)))
  {
    var order := Arrange(Eligible(rides, v), ParsePreference(v.ridePreference));
    var s := Select(rides, v);
    assert s.picked[0..] == s.picked;
    SubsequenceMembers(s.picked, order);
    ArrangeMembers(Eligible(rides, v), ParsePreference(v.ridePreference));
  }

  lemma PlanIndices(rides: seq<Ride>, v: Visitor)
    ensures var s := Select(rides, v);
      var p := GenerateOptimalPlan(rides, v);
      && (forall k :: 0 <= k < |p.selected| ==> p.selected[k] < |rides|)
      && RidesAt(rides, p.selected) == RidesOf(s.picked)
  {
    SelectDrawn(rides, v);
    var s := Select(rides, v);
    forall k | 0 <= k < |s.picked| ensures s.picked[k].index < |rides| && rides[s.picked[k].index] == s.picked[k].ride {
      assert s.picked[k] in s.picked;
    }
  }

  /** The plan's totals: remaining time is the budget minus the charged time of the selected
      rides, total thrill is their thrill sum, and the budget is never overdrawn. */
  lemma PlanAccounting(rides: seq<Ride>, v: Visitor)
    ensures var p := GenerateOptimalPlan(rides, v);
      && (forall k :: 0 <= k < |p.selected| ==> p.selected[k] < |rides|)
      && v.totalTime - p.remainingTime == PlanCost(RidesAt(rides, p.selected), v.isVip, RideGap(v.totalTime))
      && p.totalThrill == SumThrill(RidesAt(rides, p.selected))
      && (v.totalTime >= 0 ==> p.remainingTime >= 0)
      && (v.totalTime <= 0 ==> p.selected == [] && p.remainingTime == v.totalTime)
      && (p.selected == [] ==> p.totalThrill == 0 && p.remainingTime == v.totalTime)
  {
    PlanIndices(rides, v);
    var order := Arrange(Eligible(rides, v), ParsePreference(v.ridePreference));
    GreedyAccounting(order, v.isVip, RideGap(v.totalTime), Selection([], 0, v.totalTime));
  }

  /** Every selected ride is open to this visitor today. */
  lemma PlanRidesEligible(rides: seq<Ride>, v: Visitor)
    ensures var p := GenerateOptimalPlan(rides, v);
      forall k :: 0 <= k < |p.selected| ==>
        && p.selected[k] < |rides|
        && !rides[p.selected[k]].restricted
        && !(v.badWeather && rides[p.selected[k]].affectedByWeather)
        && rides[p.selected[k]].minAge <= v.age <= rides[p.selected[k]].maxAge
        && rides[p.selected[k]].minWeight <= v.weight <= rides[p.selected[k]].maxWeight
        && (v.age > 40 ==> rides[p.selected[k]].thrill <= 6)
  {
    PlanIndices(rides, v);
    SelectDrawn(rides, v);
    var s := Select(rides, v);
    forall k | 0 <= k < |s.picked| ensures IsEligible(s.picked[k].ride, v) {
      assert s.picked[k] in s.picked;
    }
  }

  /** The plan lists the catalog index of each ride the selection pass picked. */
  lemma PlanMatchesPicked(rides: seq<Ride>, v: Visitor)
    ensures var s := Select(rides, v);
      var p := GenerateOptimalPlan(rides, v);
      && |p.selected| == |s.picked|
      && forall k :: 0 <= k < |p.selected| ==>
           p.selected[k] == s.picked[k].index && p.selected[k] < |rides| && rides[p.selected[k]] == s.picked[k].ride
  {
    SelectDrawn(rides, v);
    var s := Select(rides, v);
    forall k | 0 <= k < |s.picked| ensures s.picked[k].index < |rides| && rides[s.picked[k].index] == s.picked[k].ride {
      assert s.picked[k] in s.picked;
    }
  }

  /** Preference purity and walking order, stated of the picked candidates. */
  lemma SelectFollowsPreference(rides: seq<Ride>, v: Visitor)
    ensures var s := Select(rides, v);
      var pref := ParsePreference(v.ridePreference);
      && (pref == DryOnly ==> forall c :: c in s.picked ==> KeepDry(c))
      && (pref == WetOnly ==> forall c :: c in s.picked ==> KeepWet(c))
      && (pref == DryFirst ==> (forall c :: c in s.picked ==> KeepDry(c) || KeepWet(c)) && Pairwise(s.picked, DryFirstBefore))
      && (pref == Mixed ==> StrictlyOrdered(s.picked))
      && (pref == DryOnly || pref == WetOnly ==> IndexAscending(s.picked))
  {
    SelectDrawn(rides, v);
    var s := Select(rides, v);
    var pref := ParsePreference(v.ridePreference);
    var eligible := Eligible(rides, v);
    var order := Arrange(eligible, pref);
    ArrangeMembers(eligible, pref);
    ArrangeOrder(eligible, pref);
    SubsequenceMembers(s.picked, order);
    match pref
    case Mixed =>
      SubsequencePairwise(s.picked, order, Before);
    case DryOnly =>
      var R := (a: Candidate, b: Candidate) => a.index < b.index;
      assert Pairwise(order, R);
      SubsequencePairwise(s.picked, order, R);
    case WetOnly =>
      var R := (a: Candidate, b: Candidate) => a.index < b.index;
      assert Pairwise(order, R);
      SubsequencePairwise(s.picked, order, R);
    case DryFirst =>
      SubsequencePairwise(s.picked, order, DryFirstBefore);
  }

  /** Dry-only plans hold only land and kids rides, wet-only plans only water rides, and a
      dry-first plan takes every dry ride it selects before any wet ride it selects. */
  lemma PlanRespectsPreference(rides: seq<Ride>, v: Visitor)
    ensures var p := GenerateOptimalPlan(rides, v);
      && (forall k :: 0 <= k < |p.selected| ==> p.selected[k] < |rides|)
      && (v.ridePreference == "dry_only" ==>
            forall k :: 0 <= k < |p.selected| ==> rides[p.selected[k]].rideType in {Land, Kids})
      && (v.ridePreference == "wet_only" ==>
            forall k :: 0 <= k < |p.selected| ==> rides[p.selected[k]].rideType == Water)
      && (v.ridePreference == "dry_first" ==>
            && (forall k :: 0 <= k < |p.selected| ==> rides[p.selected[k]].rideType in {Land, Kids, Water})
            && (forall i, j :: 0 <= i < j < |p.selected| && rides[p.selected[i]].rideType == Water
                  ==> rides[p.selected[j]].rideType == Water))
  {
    PlanMatchesPicked(rides, v);
    SelectFollowsPreference(rides, v);
    if v.ridePreference == "dry_only" {
      assert ParsePreference(v.ridePreference) == DryOnly;
      PlanKinds(rides, v, KeepDry);
    }
    if v.ridePreference == "wet_only" {
      assert ParsePreference(v.ridePreference) == WetOnly;
      PlanKinds(rides, v, KeepWet);
    }
    if v.ridePreference == "dry_first" {
      PlanDryFirstGroups(rides, v);
    }
  }

  /** Transfers a property of every picked candidate to the rides the plan names. */
  lemma PlanKinds(rides: seq<Ride>, v: Visitor, keep: Candidate -> bool)
    requires forall c :: c in Select(rides, v).picked ==> keep(c)
    ensures var p := GenerateOptimalPlan(rides, v);
      && (forall k :: 0 <= k < |p.selected| ==> p.selected[k] < |rides|)
      && forall k :: 0 <= k < |p.selected| ==> keep(Candidate(p.selected[k], rides[p.selected[k]]))
  {
    PlanMatchesPicked(rides, v);
    var s := Select(rides, v);
    forall k | 0 <= k < |s.picked| ensures keep(Candidate(s.picked[k].index, s.picked[k].ride)) {
      assert s.picked[k] in s.picked;
    }
  }

  /** Dry-first plans hold only typed rides, and no dry ride follows a wet one. */
  lemma PlanDryFirstGroups(rides: seq<Ride>, v: Visitor)
    requires v.ridePreference == "dry_first"
    ensures var p := GenerateOptimalPlan(rides, v);
      && (forall k :: 0 <= k < |p.selected| ==> p.selected[k] < |rides|)
      && (forall k :: 0 <= k < |p.selected| ==> rides[p.selected[k]].rideType in {Land, Kids, Water})
      && (forall i, j :: 0 <= i < j < |p.selected| && rides[p.selected[i]].rideType == Water
            ==> rides[p.selected[j]].rideType == Water)
  {
    var picked := Select(rides, v).picked;
    var sel := GenerateOptimalPlan(rides, v).selected;
    assert Pairwise(picked, DryFirstBefore) && forall c :: c in picked ==> KeepDry(c) || KeepWet(c) by {
      SelectFollowsPreference(rides, v);
      assert ParsePreference(v.ridePreference) == DryFirst;
    }
    assert |sel| == |picked| && forall k :: 0 <= k < |sel| ==> sel[k] < |rides| && rides[sel[k]] == picked[k].ride by {
      PlanMatchesPicked(rides, v);
    }
    DryFirstTransfer(rides, sel, picked);
  }

  /** The dry-first grouping of the picked candidates, read off the catalog entries they name. */
  lemma DryFirstTransfer(rides: seq<Ride>, sel: seq<nat>, picked: seq<Candidate>)
    requires |sel| == |picked|
    requires forall k :: 0 <= k < |sel| ==> sel[k] < |rides| && rides[sel[k]] == picked[k].ride
    requires Pairwise(picked, DryFirstBefore)
    requires forall c :: c in picked ==> KeepDry(c) || KeepWet(c)
    ensures forall k :: 0 <= k < |sel| ==> rides[sel[k]].rideType in {Land, Kids, Water}
    ensures forall i, j :: 0 <= i < j < |sel| && rides[sel[i]].rideType == Water ==> rides[sel[j]].rideType == Water
  {
    WetTail(picked);
    forall k | 0 <= k < |sel| ensures rides[sel[k]].rideType in {Land, Kids, Water} {
      assert picked[k] in picked;
    }
  }

  /** In a list kept in dry-first order, everything after a wet ride is wet. */
  lemma WetTail(picked: seq<Candidate>)
    requires Pairwise(picked, DryFirstBefore)
    requires forall c :: c in picked ==> KeepDry(c) || KeepWet(c)
    ensures forall i, j :: 0 <= i < j < |picked| && picked[i].ride.rideType == Water ==>
              picked[j].ride.rideType == Water
  {
    forall i, j | 0 <= i < j < |picked| && picked[i].ride.rideType == Water
      ensures picked[j].ride.rideType == Water
    {
      assert DryFirstBefore(picked[i], picked[j]);
      assert picked[j] in picked;
    }
  }

  /** No ride is taken twice. */
  lemma PlanDistinct(rides: seq<Ride>, v: Visitor)
    ensures var p := GenerateOptimalPlan(rides, v);
      && (forall k :: 0 <= k < |p.selected| ==> p.selected[k] < |rides|)
      && (forall i, j :: 0 <= i < j < |p.selected| ==> p.selected[i] != p.selected[j])
  {
    PlanMatchesPicked(rides, v);
    SelectFollowsPreference(rides, v);
    var s := Select(rides, v);
    var pref := ParsePreference(v.ridePreference);
    forall i, j | 0 <= i < j < |s.picked| ensures s.picked[i].index != s.picked[j].index {
      match pref
      case Mixed =>
        assert Before(s.picked[i], s.picked[j]);
      case DryOnly =>
      case WetOnly =>
      case DryFirst =>
        assert DryFirstBefore(s.picked[i], s.picked[j]);
        assert s.picked[i] in s.picked && s.picked[j] in s.picked;
    }
  }

  /** Without a recognised preference the plan is in heap order: thrill descending, then
      catalog index ascending. */
  lemma PlanMixedOrder(rides: seq<Ride>, v: Visitor)
    requires ParsePreference(v.ridePreference) == Mixed
    ensures var p := GenerateOptimalPlan(rides, v);
      && (forall k :: 0 <= k < |p.selected| ==> p.selected[k] < |rides|)
      && forall i, j :: 0 <= i < j < |p.selected| ==>
           || rides[p.selected[i]].thrill > rides[p.selected[j]].thrill
           || (rides[p.selected[i]].thrill == rides[p.selected[j]].thrill && p.selected[i] < p.selected[j])
  {
    PlanMatchesPicked(rides, v);
    SelectFollowsPreference(rides, v);
    var s := Select(rides, v);
    forall i, j | 0 <= i < j < |s.picked| ensures Before(s.picked[i], s.picked[j]) {
    }
  }

  /** Dry-only and wet-only plans are in catalog order. */
  lemma PlanCatalogOrder(rides: seq<Ride>, v: Visitor)
    requires v.ridePreference in {"dry_only", "wet_only"}
    ensures var p := GenerateOptimalPlan(rides, v);
      forall i, j :: 0 <= i < j < |p.selected| ==> p.selected[i] < p.selected[j]
  {
    PlanMatchesPicked(rides, v);
    SelectFollowsPreference(rides, v);
  }

  /** A dry-first plan is in heap order within the dry group and within the wet group. */
  lemma PlanDryFirstOrder(rides: seq<Ride>, v: Visitor)
    requires v.ridePreference == "dry_first"
    ensures var p := GenerateOptimalPlan(rides, v);
      && (forall k :: 0 <= k < |p.selected| ==> p.selected[k] < |rides|)
      && forall i, j ::
           (0 <= i < j < |p.selected|
            && (rides[p.selected[i]].rideType == Water <==> rides[p.selected[j]].rideType == Water)) ==>
           || rides[p.selected[i]].thrill > rides[p.selected[j]].thrill
           || (rides[p.selected[i]].thrill == rides[p.selected[j]].thrill && p.selected[i] < p.selected[j])
  {
    PlanMatchesPicked(rides, v);
    SelectFollowsPreference(rides, v);
    var s := Select(rides, v);
    forall i, j | 0 <= i < j < |s.picked| ensures DryFirstBefore(s.picked[i], s.picked[j]) {
    }
  }

  /** The order of selection: heap order (thrill descending, then catalog index ascending) when
      no recognised preference is given, catalog order for dry-only and wet-only, and heap
      order within the dry group and within the wet group for dry-first. No ride is taken twice. */
  lemma PlanOrder(rides: seq<Ride>, v: Visitor)
    ensures var p := GenerateOptimalPlan(rides, v);
      && (forall k :: 0 <= k < |p.selected| ==> p.selected[k] < |rides|)
      && (forall i, j :: 0 <= i < j < |p.selected| ==> p.selected[i] != p.selected[j])
      && (ParsePreference(v.ridePreference) == Mixed ==>
            forall i, j :: 0 <= i < j < |p.selected| ==>
              || rides[p.selected[i]].thrill > rides[p.selected[j]].thrill
              || (rides[p.selected[i]].thrill == rides[p.selected[j]].thrill && p.selected[i] < p.selected[j]))
      && (v.ridePreference in {"dry_only", "wet_only"} ==>
            forall i, j :: 0 <= i < j < |p.selected| ==> p.selected[i] < p.selected[j])
      && (v.ridePreference == "dry_first" ==>
            forall i, j ::
              (0 <= i < j < |p.selected|
               && (rides[p.selected[i]].rideType == Water <==> rides[p.selected[j]].rideType == Water)) ==>
              || rides[p.selected[i]].thrill > rides[p.selected[j]].thrill
              || (rides[p.selected[i]].thrill == rides[p.selected[j]].thrill && p.selected[i] < p.selected[j]))
  {
    PlanDistinct(rides, v);
    if ParsePreference(v.ridePreference) == Mixed {
      PlanMixedOrder(rides, v);
    }
    if v.ridePreference in {"dry_only", "wet_only"} {
      PlanCatalogOrder(rides, v);
    }
    if v.ridePreference == "dry_first" {
      PlanDryFirstOrder(rides, v);
    }
  }
}

module PlannerCompleteness {
  import opened Rides
  import opened Costs
  import opened Ordering
  import opened Planner
  import opened PlannerProperties

  /** The ride types a preference lets into the walk. */
  predicate Admits(p: Preference, t: RideType) {
    match p
    case Mixed => true
    case DryOnly => IsDry(t)
    case WetOnly => IsWet(t)
    case DryFirst => IsDry(t) || IsWet(t)
  }

  lemma ArrangeComplete(eligible: seq<Candidate>, p: Preference)
    ensures forall c :: c in eligible && Admits(p, c.ride.rideType) ==> c in Arrange(eligible, p)
  {
    match p
    case Mixed =>
      forall c | c in eligible ensures c in Arrange(eligible, p) {
        assert c in multiset(eligible);
      }
    case DryOnly =>
    case WetOnly =>
    case DryFirst =>
      var dry := Filter(eligible, KeepDry);
      var wet := Filter(eligible, KeepWet);
      forall c | c in eligible && Admits(p, c.ride.rideType) ensures c in Arrange(eligible, p) {
        if KeepDry(c) {
          assert c in multiset(dry);
          assert c in SortByThrill(dry);
        } else {
          assert c in multiset(wet);
          assert c in SortByThrill(wet);
        }
      }
  }

  /** With no recognised preference, the pass walks every eligible ride exactly once, in heap
      order, and that order is the stable thrill sort of the catalog-ordered eligible list. */
  lemma MixedWalksEveryEligibleRideOnce(rides: seq<Ride>, v: Visitor)
    requires ParsePreference(v.ridePreference) == Mixed
    ensures var order := Arrange(Eligible(rides, v), Mixed);
      && (forall i :: 0 <= i < |rides| ==> (IsEligible(rides[i], v) <==> Candidate(i, rides[i]) in order))
      && (forall c :: c in order ==> c.index < |rides| && rides[c.index] == c.ride)
      && (forall i, j :: 0 <= i < j < |order| ==> order[i].index != order[j].index)
      && StrictlyOrdered(order)
      && order == SortByThrill(Eligible(rides, v))
  {
    var eligible := Eligible(rides, v);
    ArrangeMembers(eligible, Mixed);
    ArrangeComplete(eligible, Mixed);
    ArrangeOrder(eligible, Mixed);
    HeapOrderIsThrillSort(eligible);
  }

  /** Nothing the walk could have taken is left over: every eligible ride of an admitted type
      that is not in the plan costs more, as the plan's next ride, than the time remaining. */
  lemma PlanSaturated(rides: seq<Ride>, v: Visitor)
    requires v.totalTime >= 0
    requires forall i :: 0 <= i < |rides| ==> WellTimed(rides[i])
    ensures var p := GenerateOptimalPlan(rides, v);
      forall i ::
        (0 <= i < |rides| && IsEligible(rides[i], v)
         && Admits(ParsePreference(v.ridePreference), rides[i].rideType) && i !in p.selected) ==>
        ChargedTime(rides[i], v.isVip, RideGap(v.totalTime), p.selected == []) > p.remainingTime
  {
    var pref := ParsePreference(v.ridePreference);
    var eligible := Eligible(rides, v);
    var order := Arrange(eligible, pref);
    var s := Select(rides, v);
    var p := GenerateOptimalPlan(rides, v);
    ArrangeMembers(eligible, pref);
    ArrangeComplete(eligible, pref);
    forall c | c in order ensures WellTimed(c.ride) {
      assert c in eligible;
    }
    GreedySaturates(order, v.isVip, RideGap(v.totalTime), Selection([], 0, v.totalTime));
    PlanMatchesPicked(rides, v);
    forall i | 0 <= i < |rides| && IsEligible(rides[i], v) && Admits(pref, rides[i].rideType) && i !in p.selected
      ensures ChargedTime(rides[i], v.isVip, RideGap(v.totalTime), p.selected == []) > p.remainingTime
    {
      var c := Candidate(i, rides[i]);
      assert c in order;
    }
  }
}

=== FILE: pytext.dfy ===
/** The two Python string operations the back end applies to submitted ride fields:
    `str.strip()` and lower-casing. */
module PyText {

  /** The characters `str.isspace` holds for, which `str.strip()` removes. */
  predicate IsPySpace(c: char) {
    || c == ' ' || ('\t' <= c <= '\r') || ('\U{1C}' <= c <= '\U{1F}')
    || c == '\U{85}' || c == '\U{A0}' || c == '\U{1680}' || ('\U{2000}' <= c <= '\U{200A}')
    || c == '\U{2028}' || c == '\U{2029}' || c == '\U{202F}' || c == '\U{205F}' || c == '\U{3000}'
  }

  /** Number of leading whitespace characters of `s`. */
  function LeadingSpace(s: string): (n: nat)
    ensures n <= |s|
    ensures forall k :: 0 <= k < n ==> IsPySpace(s[k])
    ensures n == |s| || !IsPySpace(s[n])
    decreases |s|
  {
    if s != [] && IsPySpace(s[0]) then 1 + LeadingSpace(s[1..]) else 0
  }

  /** Length of `s` without its trailing whitespace. */
  function TrimmedEnd(s: string): (n: nat)
    ensures n <= |s|
    ensures forall k :: n <= k < |s| ==> IsPySpace(s[k])
    ensures n == 0 || !IsPySpace(s[n - 1])
    decreases |s|
  {
    if s != [] && IsPySpace(s[|s| - 1]) then TrimmedEnd(s[..|s| - 1]) else |s|
  }

  /** `s.strip()`: the slice of `s` left after removing whitespace from both ends. */
  function Strip(s: string): (r: string)
    ensures |r| <= |s|
    ensures r == [] || (!IsPySpace(r[0]) && !IsPySpace(r[|r| - 1]))
    ensures r == [] <==> forall k :: 0 <= k < |s| ==> IsPySpace(s[k])
    ensures r != [] ==> LeadingSpace(s) < TrimmedEnd(s) && r == s[LeadingSpace(s)..TrimmedEnd(s)]
  {
    var a := LeadingSpace(s);
    var b := TrimmedEnd(s);
    if a >= b then
      assert forall k :: 0 <= k < |s| ==> IsPySpace(s[k]) by {
        forall k | 0 <= k < |s| ensures IsPySpace(s[k]) {
          if k >= a {
            assert k >= b;
          }
        }
      }
      []
    else
      assert !IsPySpace(s[a]);
      s[a..b]
  }

  lemma {:induction false} StripIdempotent(s: string)
    ensures Strip(Strip(s)) == Strip(s)
  {
    var r := Strip(s);
    if r != [] {
      assert LeadingSpace(r) == 0;
      assert TrimmedEnd(r) == |r|;
      assert r[0..|r|] == r;
    } else {
      assert LeadingSpace(r) == 0 && TrimmedEnd(r) == 0;
    }
  }

  function LowerChar(c: char): (d: char)
    ensures 'A' <= c <= 'Z' ==> 'a' <= d <= 'z' && d as int - c as int == 32
    ensures !('A' <= c <= 'Z') ==> d == c
  {
    if 'A' <= c <= 'Z' then (c as int + 32) as char else c
  }

  /** `s.lower()` restricted to the ASCII letters. */
  function Lower(s: string): (r: string)
    ensures |r| == |s|
    ensures forall k :: 0 <= k < |s| ==> r[k] == LowerChar(s[k])
  {
    seq(|s|, k requires 0 <= k < |s| => LowerChar(s[k]))
  }

  /** Lowering twice is lowering once, and lowered text has no upper-case ASCII letter left. */
  lemma LowerIdempotent(s: string)
    ensures Lower(Lower(s)) == Lower(s)
    ensures forall k :: 0 <= k < |s| ==> !('A' <= Lower(s)[k] <= 'Z')
  {
  }
}

=== FILE: rides.dfy ===
/** The ride record of the park and the (index, ride) pairs the planner works on. */
module Rides {

  /** The category of a ride. The in-memory catalog insert does not validate the type string,
      so a type other than the three known ones is kept as `Other` with its text; `Api.TypeOf`
      never builds `Other` of "land", "water" or "kids". */
  datatype RideType = Land | Water | Kids | Other(name: string)

  /** Dry rides are land and kids rides; they are the ones a dry preference keeps. */
  predicate IsDry(t: RideType) {
    t == Land || t == Kids
  }

  predicate IsWet(t: RideType) {
    t == Water
  }

  /** One ride as the back end holds it; all times are whole minutes, weights kilograms. */
  datatype Ride = Ride(
    id: string,
    name: string,
    thrill: int,
    duration: int,
    queueTime: int,
    fatigue: int,
    mandatory: bool,
    restricted: bool,
    vipAccess: bool,
    affectedByWeather: bool,
    rideType: RideType,
    minWeight: int,
    maxWeight: int,
    minAge: int,
    maxAge: int)

  /** Default bounds of a ride record when the caller gives none. */
  const DefaultMinWeight: int := 0
  const DefaultMaxWeight: int := 200
  const DefaultMinAge: int := 0
  const DefaultMaxAge: int := 100

  /** A ride together with its position in the catalog. */
  datatype Candidate = Candidate(index: nat, ride: Ride)

  /** Every candidate names its own catalog entry. */
  ghost predicate DrawnFrom(cs: seq<Candidate>, rides: seq<Ride>) {
    forall c :: c in cs ==> c.index < |rides| && rides[c.index] == c.ride
  }

  function Indices(cs: seq<Candidate>): (r: seq<nat>)
    ensures |r| == |cs|
    ensures forall k :: 0 <= k < |cs| ==> r[k] == cs[k].index
  {
    seq(|cs|, k requires 0 <= k < |cs| => cs[k].index)
  }
}

=== FILE: scenarios.dfy ===
/** Worked plans for a three-ride catalog, one per budget. */
module Scenarios {
  import opened Rides
  import opened Costs
  import opened Ordering
  import opened Planner

  function Attraction(id: string, thrill: int, duration: int, queueTime: int, t: RideType): Ride {
    Ride(id, id, thrill, duration, queueTime, 1, false, false, false, false, t,
         DefaultMinWeight, DefaultMaxWeight, DefaultMinAge, DefaultMaxAge)
  }

  /** L001 and L002 are land rides, W001 a water ride. */
  function SampleCatalog(): seq<Ride> {
    [Attraction("L001", 8, 10, 5, Land), Attraction("L002", 5, 5, 2, Land), Attraction("W001", 9, 15, 10, Water)]
  }

  function Adult(totalTime: int): Visitor {
    Visitor(totalTime, false, false, 25, 70, "")
  }

  /** Every sample ride suits the sample adult, so the eligible list is the whole catalog. */
  lemma SampleEligible(t: int)
    ensures Eligible(SampleCatalog(), Adult(t))
         == [Candidate(0, SampleCatalog()[0]), Candidate(1, SampleCatalog()[1]), Candidate(2, SampleCatalog()[2])]
  {
    var rs := SampleCatalog();
    var v := Adult(t);
    assert EligibleUpTo(rs, v, 1) == [Candidate(0, rs[0])];
    assert EligibleUpTo(rs, v, 2) == [Candidate(0, rs[0]), Candidate(1, rs[1])];
  }

  /** Sorting three rides whose thrills are middle, low, high puts them high, middle, low. */
  lemma SortThree(a: Candidate, b: Candidate, c: Candidate)
    requires b.ride.thrill < a.ride.thrill < c.ride.thrill
    ensures SortByThrill([a, b, c]) == [c, a, b]
  {
    assert [a, b, c][1..] == [b, c];
    assert [b, c][1..] == [c];
    assert SortByThrill([c]) == InsertByThrill(c, []) == [c];
    assert SortByThrill([b, c]) == InsertByThrill(b, [c]) == [c, b];
    assert InsertByThrill(a, [b]) == [a, b];
    assert InsertByThrill(a, [c, b]) == [c] + InsertByThrill(a, [b]);
  }

  /** The mixed preference walks the catalog by thrill: W001, L001, L002. */
  lemma SampleOrder(t: int)
    ensures Arrange(Eligible(SampleCatalog(), Adult(t)), Mixed) == SampleWalk()
  {
    var rs := SampleCatalog();
    var a, b, c := Candidate(0, rs[0]), Candidate(1, rs[1]), Candidate(2, rs[2]);
    SampleEligible(t);
    assert IndexAscending([a, b, c]);
    HeapOrderIsThrillSort([a, b, c]);
    SortThree(a, b, c);
  }

  function SampleWalk(): seq<Candidate> {
    [Candidate(2, SampleCatalog()[2]), Candidate(0, SampleCatalog()[0]), Candidate(1, SampleCatalog()[1])]
  }

  /** One step of the pass over a ride that fits. */
  lemma GreedyTakes(order: seq<Candidate>, gap: int, acc: Selection)
    requires order != [] && acc.remainingTime > 0
    requires ChargedTime(order[0].ride, false, gap, acc.picked == []) <= acc.remainingTime
    ensures Greedy(order, false, gap, acc)
         == Greedy(order[1..], false, gap,
              Selection(acc.picked + [order[0]], acc.totalThrill + order[0].ride.thrill,
                        acc.remainingTime - ChargedTime(order[0].ride, false, gap, acc.picked == [])))
  {
  }

  /** One step of the pass over a ride that does not fit. */
  lemma GreedySkips(order: seq<Candidate>, gap: int, acc: Selection)
    requires order != [] && acc.remainingTime > 0
    requires ChargedTime(order[0].ride, false, gap, acc.picked == []) > acc.remainingTime
    ensures Greedy(order, false, gap, acc) == Greedy(order[1..], false, gap, acc)
  {
  }

  /** The sample plans are the pass over the thrill walk, with the gap the budget calls for. */
  lemma SampleSelect(t: int)
    ensures Select(SampleCatalog(), Adult(t)) == Greedy(SampleWalk(), false, RideGap(t), Selection([], 0, t))
  {
    assert ParsePreference("") == Mixed;
    SampleOrder(t);
  }

  /** A walk whose first ride leaves too little for either of the others. */
  lemma WalkTakesFirst(x: Candidate, y: Candidate, z: Candidate, gap: int, t: int)
    requires 0 < ChargedTime(x.ride, false, gap, true) < t
    requires ChargedTime(y.ride, false, gap, false) > t - ChargedTime(x.ride, false, gap, true)
    requires ChargedTime(z.ride, false, gap, false) > t - ChargedTime(x.ride, false, gap, true)
    ensures Greedy([x, y, z], false, gap, Selection([], 0, t))
         == Selection([x], x.ride.thrill, t - ChargedTime(x.ride, false, gap, true))
  {
    var one := Selection([x], x.ride.thrill, t - ChargedTime(x.ride, false, gap, true));
    assert [] + [x] == [x];
    GreedyTakes([x, y, z], gap, Selection([], 0, t));
    assert [x, y, z][1..] == [y, z] && [y, z][1..] == [z] && [z][1..] == [];
    GreedySkips([y, z], gap, one);
    GreedySkips([z], gap, one);
  }

  /** A walk that takes the first and the third ride. */
  lemma WalkTakesFirstAndLast(x: Candidate, y: Candidate, z: Candidate, gap: int, t: int)
    requires 0 < ChargedTime(x.ride, false, gap, true) < t
    requires ChargedTime(y.ride, false, gap, false) > t - ChargedTime(x.ride, false, gap, true)
    requires ChargedTime(z.ride, false, gap, false) <= t - ChargedTime(x.ride, false, gap, true)
    ensures Greedy([x, y, z], false, gap, Selection([], 0, t))
         == Selection([x, z], x.ride.thrill + z.ride.thrill,
                      t - ChargedTime(x.ride, false, gap, true) - ChargedTime(z.ride, false, gap, false))
  {
    var one := Selection([x], x.ride.thrill, t - ChargedTime(x.ride, false, gap, true));
    var two := Selection([x, z], x.ride.thrill + z.ride.thrill,
                         one.remainingTime - ChargedTime(z.ride, false, gap, false));
    assert [] + [x] == [x];
    GreedyTakes([x, y, z], gap, Selection([], 0, t));
    assert [x, y, z][1..] == [y, z] && [y, z][1..] == [z] && [z][1..] == [];
    GreedySkips([y, z], gap, one);
    GreedyTakes([z], gap, one);
    assert one.picked + [z] == [x, z];
  }

  /** A walk none of whose rides fits the budget. */
  lemma WalkTakesNone(x: Candidate, y: Candidate, z: Candidate, gap: int, t: int)
    requires t > 0
    requires ChargedTime(x.ride, false, gap, true) > t
    requires ChargedTime(y.ride, false, gap, true) > t
    requires ChargedTime(z.ride, false, gap, true) > t
    ensures Greedy([x, y, z], false, gap, Selection([], 0, t)) == Selection([], 0, t)
  {
    var none := Selection([], 0, t);
    assert [x, y, z][1..] == [y, z] && [y, z][1..] == [z] && [z][1..] == [];
    GreedySkips([x, y, z], gap, none);
    GreedySkips([y, z], gap, none);
    GreedySkips([z], gap, none);
  }

  /** The plan reports the catalog indices of the selected rides. */
  lemma PlanFromSelection(rides: seq<Ride>, v: Visitor, picked: seq<Candidate>, ix: seq<nat>, thrill: int, rest: int)
    requires Select(rides, v) == Selection(picked, thrill, rest)
    requires |ix| == |picked| && forall k :: 0 <= k < |ix| ==> ix[k] == picked[k].index
    ensures GenerateOptimalPlan(rides, v) == Plan(ix, thrill, rest)
  {
  }

  /** From half an hour up to 34 minutes only the most thrilling ride, W001, fits: it costs
      25 minutes and L001 or L002 would each cost more than what is left once the gap is paid. */
  lemma HalfHourPlan(t: int)
    requires 30 <= t < 35
    ensures GenerateOptimalPlan(SampleCatalog(), Adult(t)) == Plan([2], 9, t - 25)
  {
    var w := SampleWalk();
    assert Select(SampleCatalog(), Adult(t)) == Selection([w[0]], 9, t - 25) by {
      SampleSelect(t);
      WalkTakesFirst(w[0], w[1], w[2], 10, t);
      assert [w[0], w[1], w[2]] == w;
    }
    PlanFromSelection(SampleCatalog(), Adult(t), [w[0]], [2], 9, t - 25);
  }

  /** From 42 to 49 minutes the pass takes W001, skips L001 and still fits L002. */
  lemma ThreeQuarterHourPlan(t: int)
    requires 42 <= t < 50
    ensures GenerateOptimalPlan(SampleCatalog(), Adult(t)) == Plan([2, 1], 14, t - 42)
  {
    var w := SampleWalk();
    assert Select(SampleCatalog(), Adult(t)) == Selection([w[0], w[2]], 14, t - 42) by {
      SampleSelect(t);
      WalkTakesFirstAndLast(w[0], w[1], w[2], 10, t);
      assert [w[0], w[1], w[2]] == w;
    }
    PlanFromSelection(SampleCatalog(), Adult(t), [w[0], w[2]], [2, 1], 14, t - 42);
  }

  /** Under seven minutes no ride fits: the plan is empty and the whole budget remains. */
  lemma ShortVisitPlan(t: int)
    requires 0 < t < 7
    ensures GenerateOptimalPlan(SampleCatalog(), Adult(t)) == Plan([], 0, t)
  {
    var w := SampleWalk();
    assert Select(SampleCatalog(), Adult(t)) == Selection([], 0, t) by {
      SampleSelect(t);
      WalkTakesNone(w[0], w[1], w[2], 5, t);
      assert [w[0], w[1], w[2]] == w;
    }
    PlanFromSelection(SampleCatalog(), Adult(t), [], [], 0, t);
  }
}

=== FILE: wrappers.dfy ===
/** Failure-carrying values shared by every module of the model. */
module Wrappers {

  /** An optional value; `None` also stands for JavaScript's `NaN` result of `parseInt`. */
  datatype Option<+T> = None | Some(value: T) {
    function GetOr(default: T): T {
      match this
      case Some(v) => v
      case None => default
    }
  }

  /** The outcome of a request handler: a value, or the error that was reported. */
  datatype Result<+R, +E> = Success(value: R) | Failure(error: E)
}
